=== FILE: README.md ===
# ap-perkeep-uploader in Dafny

A model of the core of ap-perkeep-uploader. The tool reads an ActivityPub
archive (an export of ActivityStreams JSON-LD documents). It finds an actor's
outbox and publishes each note-creation activity to a Perkeep store as one
permanode. The permanode carries claims for:

- the activity id;
- the object id;
- the actor;
- the HTML content;
- the publication date;
- one claim per attachment file.

The model has six modules:

- `PyJson` (`pyjson.dfy`): the JSON values the Python code handles, with
  `None` as `JNull`. It also has the exceptions that escape from the core,
  as an `Error` datatype carried by `Result`, and the Python operations the
  core applies to JSON: truthiness, `v[key]`, `dict.get` and `for x in v`.
- `Generators` (`generators.dfy`): Python generators as values. One run of a
  generator over a source sequence gives the values it yielded, in order,
  and the exception that ended it, if any. `Picks` states that a run is
  exactly the order-preserving selection of the yielding elements.
- `ApImporter` (`ap_importer.dfy`): `perkeepap/ap_importer.py`, which is
  pure code, so it becomes pure functions:
  - `get_aliased` and `get_collection`;
  - `ApData` with loading, `get_by_id` and `find_persons`;
  - `ApOutbox` with its constructor, iteration and `notes_only`.
- `Text` (`text.dfy`): the decimal attachment index in
  `camliPath:attachment{n}`, and percent-decoding of attachment URLs. The
  decoder comes with an encoder, `Quote`, as its stated inverse.
- `Perkeep` (`perkeep.dfy`): the part of the perkeeppy client the uploader
  calls, as a `Store` class. It has a set of searchable claim bindings, a
  permanode counter, and a ghost log of every call made on it.
- `PkExporter` (`pk_exporter.dfy`): `perkeepap/pk_exporter.py`, which is
  imperative code, so the class `ApUploader` keeps its methods and loops.
  - `upload_item` becomes `UploadItem`, `UploadNew`, `CollectClaims`,
    `UploadNote`, `UploadAttachments` and `UploadAttachment`.
  - `upload_items` becomes `UploadItems` and `UploadCounted`.
  - Each method is proved against a pure specification of its effect:
    `Publish` (one activity) or `UploadAll` (a run of activities). The
    effect is the result, the calls made on the store in order, and the
    store state afterwards.
  - The lemmas that state what the uploader promises are about those
    specifications, for example:
    - which failures come before any write;
    - the claim order;
    - that a duplicate is skipped;
    - that the counters add up.

Two predicates state the shape of a successful publication:

- `PutsNote` states the call sequence: the id query, the signing of the
  permanode, the uploads, and then one put.
- `ClaimsNote` states the claim list of that put: the eight fixed claims,
  then one claim per uploaded file, in upload order.

Where the code does something other than what its own comments, docstrings
or names evidently intend, the model follows the code:

- **Content claim.** The `content` claim is always `object.content` as it
  is. The summary-prefixed text is assigned to `html_test`, a variable
  that nothing reads (`perkeepap/pk_exporter.py:84`). The condition and
  the comment above it (`perkeepap/pk_exporter.py:81-83`) show the intent,
  which is to prefix the text with the summary when one is present.
- **Outbox that is not a collection.** The comment at
  `perkeepap/ap_importer.py:131` assumes that an outbox is always a
  collection. When it is not, the member list is `None`, so iterating it
  raises `TypeError` (`perkeepap/ap_importer.py:132`, 136 and 147).
- **Attachment without `url`.** This raises a plain `KeyError`, because the
  attachment loop is outside the `try` block
  (`perkeepap/pk_exporter.py:102`).
- **Failure in a batch.** The docstring of `upload_items` promises to
  upload all items (`perkeepap/pk_exporter.py:21-23`). An exception from
  one item ends the whole batch (`perkeepap/pk_exporter.py:29-30`).
- **Loading (`LoadFailsOnlyOnBadEncoding`).** A `.json` file whose text is
  not valid in the platform encoding makes loading raise
  `UnicodeDecodeError`. The scan catches only `JSONDecodeError` and `OSError`
  (`perkeepap/ap_importer.py:74-77`), and the decoding error is neither. The
  docstring (`perkeepap/ap_importer.py:63`) says that unreadable files are
  skipped.
- **Permanode signing.** The permanode is signed before the fields are
  checked (`perkeepap/pk_exporter.py:59`), so an invalid item still makes
  one signing call. It never uploads or puts.

## Model

| member | source | states |
|---|---|---|
| PyJson.Subscript | perkeepap/pk_exporter.py:70-89 | `v[key]` succeeds exactly on a dict that has the key, giving its value; a dict without the key raises `KeyError(key)`; anything else raises `TypeError` |
| PyJson.Required | perkeepap/ap_importer.py:121-124 | `except KeyError: raise MissingAsDataError(...)`: a `KeyError` on a key becomes the missing-data error chosen for it; a success or any other exception passes through unchanged; no `KeyError` comes out |
| PyJson.FalsyValues | perkeepap/pk_exporter.py:49 | `Truthy`, Python's truth test (`if not as_id`, `if ....get('attachment')`): the falsy values are exactly `None`, `False`, zero and the empty string, list and dict |
| PyJson.DictGetIsSubscript | perkeepap/pk_exporter.py:97 | `DictGet`, `dict.get(key)`: the value `d[key]` gives where that succeeds, and `None` where it raises |
| PyJson.ContainsAt | perkeepap/ap_importer.py:35-40 | `Contains`, `key in s` on a string: true exactly when the key occurs in the string at some position |
| PyJson.Members | perkeepap/pk_exporter.py:98 | `for x in v` visits a list's elements in order and a string's characters one by one; `None`, booleans and numbers raise `TypeError` |
| ApImporter.GetAliased | perkeepap/ap_importer.py:30-43 | on a dict: the plain key's value whenever that key is present (even when `@key` is also present), otherwise the `@key` value, otherwise `None`; a non-`None` result always comes from one of the two keys; a non-dict gives `None` or raises `TypeError` |
| ApImporter.GetCollection | perkeepap/ap_importer.py:12-27 | exactly `items` for type `Collection` and exactly `orderedItems` for `OrderedCollection` (a `KeyError` when that field is absent), with the type read through the alias; `None` for any other or absent type |
| ApImporter.LoadStep | perkeepap/ap_importer.py:69-77 | a file yields exactly when it parsed, and what it yields is its parsed document; only an encoding error escapes; a decode or read failure is skipped |
| ApImporter.FromDir | perkeepap/ap_importer.py:58-80 | loading gives at most one document per file |
| ApImporter.LoadFailsOnlyOnBadEncoding | perkeepap/ap_importer.py:67-78 | loading succeeds if and only if no file has an encoding error |
| ApImporter.LoadKeepsParsedInOrder | perkeepap/ap_importer.py:67-80 | the loaded documents are exactly the parsed files' documents, each once, in discovery order |
| ApImporter.LoadSkipsMalformed | perkeepap/ap_importer.py:69-77 | a malformed file and an unreadable file among parsed ones are dropped, and the scan goes on past them |
| ApImporter.FindFrom | perkeepap/ap_importer.py:89 | the scan from position `k` finds nothing exactly when every later document misses; a hit is the first matching document; an error comes from the first document whose id cannot be read, with every earlier one missing |
| ApImporter.GetById | perkeepap/ap_importer.py:82-89 | `None` if and only if no document's aliased id equals the argument; otherwise the first matching document in list order |
| ApImporter.FindFromHit | perkeepap/ap_importer.py:89 | a matching document at `i` with only misses before it is what the scan from `k` returns |
| ApImporter.FirstMatchIsFound | perkeepap/ap_importer.py:82-89 | the first matching document in list order is returned |
| ApImporter.GetByIdUnique | perkeepap/ap_importer.py:82-89 | when ids are distinct, the document with the id is found wherever it stands in the list |
| ApImporter.PersonStep | perkeepap/ap_importer.py:98-100 | a node yields if and only if its aliased type is `Person`, and what it yields is its aliased id |
| ApImporter.FindPersons | perkeepap/ap_importer.py:91-100 | `find_persons` yields at most one id per document, and ends normally exactly when every document's type can be read; `FindPersonsExact` states which ids it yields |
| ApImporter.FindPersonsExact | perkeepap/ap_importer.py:91-100 | `find_persons` yields the aliased id of every `Person` document, in document order, and nothing else |
| ApImporter.NewOutbox | perkeepap/ap_importer.py:115-132 | a constructed outbox belongs to an actor whose aliased id is the one asked for, and which has a plain `outbox` field; the member list is the collection of a document found under that field's id |
| ApImporter.OutboxFound | perkeepap/ap_importer.py:115-132 | construction succeeds when the actor is found with a plain `outbox`, that id names a non-empty document, and its member list reads; the outbox then holds that actor and that member list |
| ApImporter.ActorAbsentIsMissing | perkeepap/ap_importer.py:117-120 | an actor id that no document carries raises missing data (actor not found) |
| ApImporter.ActorWithoutOutboxIsMissing | perkeepap/ap_importer.py:122-125 | an actor without a plain `outbox` key raises missing data, even when it has `@outbox` |
| ApImporter.OutboxAbsentIsMissing | perkeepap/ap_importer.py:127-129 | an outbox id that no document carries raises missing data (outbox not found) |
| ApImporter.Iterate | perkeepap/ap_importer.py:135-136 | iterating the outbox yields the stored members in order; a `None` member list raises `TypeError` |
| ApImporter.IsNoteCreation | perkeepap/ap_importer.py:148-149 | a member passes the test only if its aliased type is `Create`; any other readable type fails the test without `object` being read |
| ApImporter.NoteCreationOnFields | perkeepap/ap_importer.py:148-149 | a dict passes if and only if its type is `Create` and its `object`'s aliased type is `Note`; a `Create` without `object` raises `KeyError` |
| ApImporter.ObjectUnreadForOtherTypes | perkeepap/ap_importer.py:148-149 | for a non-`Create` member, whatever is under `object`, or its absence, does not change the outcome |
| ApImporter.NoteStep | perkeepap/ap_importer.py:147-151 | a member is yielded, unchanged, exactly when it passes the test; it raises exactly when the test raises |
| ApImporter.NotesOnly | perkeepap/ap_importer.py:139-151 | `notes_only` yields at most one value per member; it ends normally exactly when no member's test raises; members that cannot be iterated raise before anything is yielded; `NotesOnlyExact` states which members it yields |
| ApImporter.NotesOnlyExact | perkeepap/ap_importer.py:139-151 | `notes_only` yields exactly the note creations, each once, in stored order, up to the first member whose test raises, and ends with that exception |
| ApImporter.NotesOnlySound | perkeepap/ap_importer.py:139-151 | every member `notes_only` yields is a stored member that passes the test |
| ApImporter.NonCollectionOutboxFails | perkeepap/ap_importer.py:132-147 | with no member list, both `__iter__` and `notes_only` raise `TypeError` before yielding anything |
| Generators.Run | perkeepap/ap_importer.py:98-100 | a generator's loop yields at most one value per source element |
| Generators.RunStopsOnRaise | perkeepap/ap_importer.py:147-151 | a generator ends normally if and only if no element's loop body raises |
| Generators.FirstRaise | perkeepap/ap_importer.py:147-151 | the position of the first element whose body raises: none before it raises, and it does if it is within the source |
| Generators.RunPicks | perkeepap/ap_importer.py:147-151 | a generator stops with the first raised exception, and yields exactly the values of the yielding elements before it, in order |
| Generators.RunStopped | perkeepap/ap_importer.py:147-151 | once the loop body has raised, the rest of the source is never visited |
| Text.NatToString | perkeepap/pk_exporter.py:117 | the decimal text of `n` is non-empty and all digits |
| Text.ParseNatToString | perkeepap/pk_exporter.py:117 | reading the decimal text back gives `n` |
| Text.NatToStringInjective | perkeepap/pk_exporter.py:117 | distinct indices have distinct decimal texts |
| Text.Unquote | perkeepap/pk_exporter.py:111 | decoding never lengthens the text |
| Text.UnquoteKeepsMalformed | perkeepap/pk_exporter.py:111 | a `%` not followed by two hexadecimal digits is kept as it is, and decoding goes on after it |
| Text.UnquoteWithoutPercent | perkeepap/pk_exporter.py:111 | text without `%` is unchanged by decoding |
| Text.UnquotePlainPrefix | perkeepap/pk_exporter.py:111 | a prefix without `%` passes through decoding unchanged |
| Text.QuoteUnreserved | perkeepap/pk_exporter.py:111 | the reference encoder leaves unreserved text unchanged |
| Text.UnquoteQuote | perkeepap/pk_exporter.py:111 | decoding undoes percent-encoding, for every text |
| Perkeep.Store.Query | perkeepap/pk_exporter.py:51 | the query is truthy exactly when a claim with that attribute and value has been put; it logs one query and changes nothing else |
| Perkeep.Store.MakePermanode | perkeepap/pk_exporter.py:59 | a fresh permanode is signed and logged |
| Perkeep.Store.UploadFile | perkeepap/pk_exporter.py:114-115 | the upload is logged, and the reference it returns names that file |
| Perkeep.Store.PutMulti | perkeepap/pk_exporter.py:120-123 | the one put is logged, and every claim it carries becomes searchable |
| PkExporter.BaseName | perkeepap/pk_exporter.py:115 | `path.name` is a suffix of the path without `/`, and it is preceded by a `/` unless it is the whole path: the part after the last `/` |
| PkExporter.ResolveUrl | perkeepap/pk_exporter.py:102-112 | a URL resolves, under the archive root, if and only if it is a non-empty string; an empty URL raises `IndexError`; a non-string raises `TypeError` |
| PkExporter.ResolveRelativePath | perkeepap/pk_exporter.py:107-112 | a URL without a leading `/` is kept whole: an encoded path not starting with `/` names that path under the root |
| PkExporter.ResolveLowercaseEscape | perkeepap/pk_exporter.py:107-112 | lower-case escapes decode: `/a%2fb` names `a/b` under the root |
| PkExporter.ResolveEncodedPath | perkeepap/pk_exporter.py:102-112 | `/` followed by a percent-encoded path resolves to that path under the root: exactly one `/` is dropped, then the text is decoded |
| PkExporter.ResolvePlainPath | perkeepap/pk_exporter.py:102-112 | `/` followed by a path of unreserved characters names that very path under the root |
| PkExporter.ResolveEscapedSpace | perkeepap/pk_exporter.py:102-112 | `/media/foo%20bar.png` names `media/foo bar.png` under the root |
| PkExporter.OpenAttachment | perkeepap/pk_exporter.py:102-115 | an opened attachment is a readable file under the root, uploaded under its base name with its contents; an attachment without `url` raises `KeyError('url')` |
| PkExporter.OpenAttachmentFollowsUrl | perkeepap/pk_exporter.py:102-115 | the opened file is the one the attachment's `url` resolves to; it opens exactly when that path is readable; otherwise the resolution's exception, or an `OSError` for the path, is raised; a non-dict attachment raises `TypeError` |
| PkExporter.PlanUploads | perkeepap/pk_exporter.py:97-118 | the loop uploads at most one file per attachment |
| PkExporter.Opened | perkeepap/pk_exporter.py:98-114 | each attachment has exactly one outcome of being opened |
| PkExporter.OpenedAt | perkeepap/pk_exporter.py:98-114 | the n-th outcome is that of opening the n-th attachment |
| PkExporter.PlanIsFirstFailure | perkeepap/pk_exporter.py:98-118 | the attachment loop is the loop over the opening outcomes that stops at the first exception |
| PkExporter.FirstFailureInOrder | perkeepap/pk_exporter.py:98-118 | over given outcomes: without an exception, every file in order; with one, the files before the first failure, and that failure |
| PkExporter.PlanUploadsInOrder | perkeepap/pk_exporter.py:98-118 | attachments are visited in order: without an exception, the n-th upload is the n-th attachment's file; with one, every earlier attachment was uploaded and the failing one raised |
| PkExporter.FirstFailureAt | perkeepap/pk_exporter.py:98-118 | over given outcomes, a failure after `k` successes stops the loop with `k` files and that failure |
| PkExporter.PlanFailsAt | perkeepap/pk_exporter.py:98-118 | an attachment at position `k` that raises, after `k` that opened, ends the loop with exactly those `k` files and its exception |
| PkExporter.PlanStopped | perkeepap/pk_exporter.py:98-118 | once an attachment has raised, no later one is opened |
| PkExporter.UploadEvents | perkeepap/pk_exporter.py:114-115 | one upload call per file |
| PkExporter.UploadEventsAt | perkeepap/pk_exporter.py:114-115 | the n-th upload call uploads the n-th file |
| PkExporter.AttachmentAttrsDistinct | perkeepap/pk_exporter.py:117 | distinct attachments are bound under distinct `camliPath:attachment{n}` attributes |
| PkExporter.AttachmentClaims | perkeepap/pk_exporter.py:117 | one claim per uploaded file |
| PkExporter.AttachmentClaimsAt | perkeepap/pk_exporter.py:98-117 | the n-th attachment claim sets `camliPath:attachment{n}` to the n-th upload |
| PkExporter.ClaimsLayout | perkeepap/pk_exporter.py:63-117 | the claim list, position by position: `camliType`, `camliPath:object` (add), `asId`, `asObjectId`, `asActor`, `camliPath:object` (set), `content`, `startDate`, then the attachments in order |
| PkExporter.ItemId | perkeepap/pk_exporter.py:46-49 | the activity id is the aliased id when that is truthy; a falsy one raises missing data; an unreadable one propagates its exception |
| PkExporter.Reraised | perkeepap/pk_exporter.py:92-93 | a `KeyError` on a key in the `try` block becomes missing data naming that key; a success or any other exception passes through; no `KeyError` leaves the block |
| PkExporter.Validate | perkeepap/pk_exporter.py:69-93 | validation succeeds if and only if the item is a dict whose `object` is a dict with a truthy aliased id and `content`, and the item has `actor` and `published`; the fields read are those values, as they are; a missing `object`, a falsy object id, or a missing `actor`, `content` or `published` (checked in that order) raises its own missing-data error; `TypeError` only when the item or its `object` is not a dict |
| PkExporter.AttachmentList | perkeepap/pk_exporter.py:97-98 | no attachment field means no attachments; a list's elements are the attachments; a failure comes from iterating a truthy value that is not a list |
| PkExporter.MissingIdTouchesNothing | perkeepap/pk_exporter.py:46-49 | an item without a truthy id raises before any call on the store |
| PkExporter.DuplicateIsSkipped | perkeepap/pk_exporter.py:51-55 | an id already in the store returns 0 after the query alone, with the store unchanged |
| PkExporter.InvalidItemWritesNothing | perkeepap/pk_exporter.py:59-93 | an item that fails validation raises that error after the query and the signing, with no upload, no put and no new binding |
| PkExporter.ObjectWithoutIdWritesNothing | perkeepap/pk_exporter.py:70-73 | an object without `id` or `@id` raises missing data, with no upload and no put |
| PkExporter.AttachmentWithoutUrlIsKeyError | perkeepap/pk_exporter.py:97-102 | a first attachment without `url` raises a plain `KeyError`, with no upload and no put |
| PkExporter.AttachmentFailureIsRaised | perkeepap/pk_exporter.py:95-126 | an attachment at position `k` that raises (a missing `url`, an unreadable file), after `k` that opened, makes the call raise that exception after the signing and the `k` uploads of the earlier attachments' files, with no put and no new binding |
| PkExporter.FailedEvents | perkeepap/pk_exporter.py:51-115 | the calls of a new, valid item whose attachment loop raised: the query, the signing, then one upload per file opened before the failure, and nothing else |
| PkExporter.FailedUploads | perkeepap/pk_exporter.py:98-115 | the uploads made before such an attachment are the earlier attachments' files, in order |
| PkExporter.Publish | perkeepap/pk_exporter.py:39-126 | `upload_item` returns 0 or 1; it makes no call exactly when the id is unreadable or falsy; claims are never removed and at most one permanode is signed; the lemmas from `MissingIdTouchesNothing` to `PublishedShape` below state each path through it |
| PkExporter.PublishNew | perkeepap/pk_exporter.py:57-126 | for a new id the first call signs the permanode, exactly one permanode is signed, claims are never removed, and a result is always 1 |
| PkExporter.PutNote | perkeepap/pk_exporter.py:95-126 | the end of `upload_item` returns 1 exactly when no attachment raised, after signing one permanode first; when one raised, the call raises that exception and adds no binding; `NoteEvents` states its calls |
| PkExporter.NewItemIsPublished | perkeepap/pk_exporter.py:51-126 | a new id whose call does not raise returns 1 |
| PkExporter.OpenableItemIsPublished | perkeepap/pk_exporter.py:95-126 | a new, valid item whose attachments all open returns 1 |
| PkExporter.PublishedIsPutNote | perkeepap/pk_exporter.py:46-126 | a call that returned 1 had a new truthy id, a valid item, a readable attachment list and every attachment opened |
| PkExporter.NoteEvents | perkeepap/pk_exporter.py:59-123 | the calls after the query: the signing, one upload per file in order, then the put of the permanode and the activity with the claim list |
| PkExporter.NotePuts | perkeepap/pk_exporter.py:95-123 | those calls satisfy `PutsNote`: uploads only, between the signing and the one put |
| PkExporter.NoteClaims | perkeepap/pk_exporter.py:63-123 | the put's claims satisfy `ClaimsNote`: the fixed claims, with `content` as it is, then each uploaded file under its index |
| PkExporter.NoteIndexed | perkeepap/pk_exporter.py:120-123 | after the put the activity id is searchable |
| PkExporter.PublishedCalls | perkeepap/pk_exporter.py:51-126 | a call that returned 1 queried, signed and uploaded before a single put carrying the permanode, the activity and its claims in claim order, and made the id searchable |
| PkExporter.PublishedUploads | perkeepap/pk_exporter.py:97-115 | the uploads of a call that returned 1 are the item's attachments, each opened, one per attachment and in order |
| PkExporter.PublishedShape | perkeepap/pk_exporter.py:51-126 | a call that returned 1 queried, signed, uploaded every attachment (the n-th upload being the n-th attachment's file) before a single put carrying the permanode, the activity and its claims in claim order, and made the id searchable |
| PkExporter.RepublishIsSkipped | perkeepap/pk_exporter.py:51-55 | publishing the same activity again, against the store the first call left, returns 0 and makes no write |
| PkExporter.SummaryIsIgnored | perkeepap/pk_exporter.py:79-86 | adding or changing the object's `summary` leaves the validated fields, and so the `content` claim, unchanged |
| PkExporter.UploadAll | perkeepap/pk_exporter.py:29-37 | `upload_items` over a lazy generator: the calls and store state are those of publishing the yielded items; the generator's own exception surfaces only after every yielded item went through, and an item's exception comes first |
| PkExporter.PublishAll | perkeepap/pk_exporter.py:20-37 | after a run without an exception, `added + skips` is the number of items; `TallyCoversEveryItem` adds the puts |
| PkExporter.Count | perkeepap/pk_exporter.py:29-35 | after an exception nothing more happens; otherwise the item's calls follow the earlier ones, and the run goes on exactly when the item did not raise, counted by `Tallied` |
| PkExporter.Tallied | perkeepap/pk_exporter.py:32-35 | `added` grows by the item's result; `skips` grows by one exactly when that result is 0 |
| PkExporter.PublishAllStep | perkeepap/pk_exporter.py:29-35 | each item is published against the store the earlier items left, and counted |
| PkExporter.PublishPuts | perkeepap/pk_exporter.py:53-126 | a call returns 0 or 1, and makes exactly that many puts |
| PkExporter.PutNoteCount | perkeepap/pk_exporter.py:120-126 | a publication whose attachments all opened makes exactly one put |
| PkExporter.TallyCoversEveryItem | perkeepap/pk_exporter.py:26-37 | after a run without an exception, `added + skips` is the number of items, and `added` is the number of puts made |
| PkExporter.PublishAllStopped | perkeepap/pk_exporter.py:29-30 | once an item has raised, no later item is published |
| PkExporter.ApUploader.constructor | perkeepap/pk_exporter.py:16-18 | the archive root is the one given, or the current directory when none is given |
| PkExporter.ApUploader.UploadItem | perkeepap/pk_exporter.py:39-55 | `upload_item` returns, calls and leaves the store as `Publish` says |
| PkExporter.ApUploader.CollectClaims | perkeepap/pk_exporter.py:63-93 | the claim list built before the attachments succeeds if and only if validation does; it is the eight fixed claims, and the error is validation's |
| PkExporter.ApUploader.UploadNew | perkeepap/pk_exporter.py:57-126 | for a new id, the rest of `upload_item` behaves as its specification says |
| PkExporter.ApUploader.UploadNote | perkeepap/pk_exporter.py:95-126 | the uploads and the final put behave as `PutNote` says |
| PkExporter.ApUploader.UploadAttachments | perkeepap/pk_exporter.py:97-118 | the attachment loop succeeds if and only if no attachment raises, returns one claim per uploaded file, and logs those uploads |
| PkExporter.ApUploader.UploadAttachment | perkeepap/pk_exporter.py:102-117 | one turn either uploads the n-th file and returns its claim, or raises that attachment's exception without an upload |
| PkExporter.ApUploader.UploadCounted | perkeepap/pk_exporter.py:30-35 | one turn of `upload_items` publishes the item and counts it as added by its result or as skipped |
| PkExporter.ApUploader.UploadItems | perkeepap/pk_exporter.py:20-37 | `upload_items` over a generator run returns the counters, calls and store state that `UploadAll` gives |

## Left out

- File I/O: directory globbing, `open` and `json.load` are not modelled. Loading takes the outcome of each file (parsed, malformed, unreadable, badly encoded) in discovery order. The file system for attachments is a map from local paths to bytes.
- Serialization: `json.dumps` of the activity is not modelled. The content blob is named by the activity value itself (`ContentRef`).
- Perkeep internals: blob hashing, signing, claim blobs and the search engine are not modelled. The store is a set of (attribute, value) bindings, a permanode counter and a ghost log. Store calls never fail in the model.
- The query string: the text of `attr:asId:"<id>"` is not built. The query is a lookup of the binding. So an id containing a `"` is not treated differently.
- Path joining: pathlib normalisation is not modelled. The root and the decoded relative path are kept apart, so a decoded path that is itself absolute does not replace the root.
- Percent-decoding: `unquote` is decoded one character per `%XX` escape. UTF-8 sequences of several escapes are not combined.
- Python equality: equality between values of different JSON types is not modelled (`1 == 1.0 == True`). Numbers are reals.
- Iterating a dict: iterating a JSON object (an attachment value or an outbox given as a dict) raises `UnorderedIteration`. Python would iterate the keys in insertion order, which a map does not keep.
- `url` that is not a string: every non-string `url` raises `TypeError` in the model. Python agrees for `None`, numbers and booleans, but differs for three kinds of value. A dict raises `KeyError(0)` from `path_str[0]` (line 107, outside the `try`). An empty list raises `IndexError`. A non-empty list raises `AttributeError` or `TypeError` from `unquote`.
- Logging: `logger` calls are not modelled, including the final counter message.
- The CLI: `upload_dump.py` (argument parsing, connection, choice of actor) is not part of this model.
- PkExporter.ApUploader.UploadItems: `upload_items` returns `None`. The model returns the counters it logs, so that the counting can be stated.
- Concurrency: runs racing against the same store are not modelled; the model is sequential.

=== FILE: ap_importer.dfy ===
/** Reading an ActivityStreams (JSON-LD) archive: field lookup through
    `@`-aliases, collection members, the set of loaded documents with lookup
    by id and discovery of persons, and an actor's outbox with its
    note-creation filter. */
module ApImporter {
  import opened PyJson
  import opened Generators

  /** A JSON-LD field under its plain name, falling back to the `@`-prefixed
      alias; `JNull` (Python's `None`) when neither is present. On a value
      that is not a mapping, Python's `in` test either finds nothing or the
      subscript that follows raises `TypeError`. */
  function GetAliased(v: Json, key: string): (r: Result<Json>)
    ensures v.JObj? ==> r.Ok?
    ensures v.JObj? && key in v.fields ==> r.value == v.fields[key]
    ensures v.JObj? && key !in v.fields && "@" + key in v.fields ==> r.value == v.fields["@" + key]
    ensures v.JObj? && key !in v.fields && "@" + key !in v.fields ==> r.value == JNull
    ensures !v.JObj? ==> r == Ok(JNull) || r == Err(TypeError)
    ensures r.Ok? && r.value != JNull ==> v.JObj? && (key in v.fields || "@" + key in v.fields)
  {
    match v
    case JObj(m) =>
      if key in m then Ok(m[key])
      else if "@" + key in m then Ok(m["@" + key])
      else Ok(JNull)
    case JStr(s) =>
      if Contains(s, key) || Contains(s, "@" + key) then Err(TypeError) else Ok(JNull)
    case JList(xs) =>
      if JStr(key) in xs || JStr("@" + key) in xs then Err(TypeError) else Ok(JNull)
    case _ => Err(TypeError)
  }

  /** Whether `v`'s aliased `key` resolves, without error, to the string `s`. */
  predicate AliasedIs(v: Json, key: string, s: string) {
    GetAliased(v, key) == Ok(JStr(s))
  }

  /** The member list of an ActivityStreams collection: the `items` field of a
      `Collection`, the `orderedItems` field of an `OrderedCollection`, and
      `JNull` for anything else. The type is read through the alias; the
      member fields are not. */
  function GetCollection(parent: Json): (r: Result<Json>)
    ensures parent.JObj? && AliasedIs(parent, "type", "Collection") ==>
              r == (if "items" in parent.fields then Ok(parent.fields["items"]) else Err(KeyError("items")))
    ensures parent.JObj? && AliasedIs(parent, "type", "OrderedCollection") ==>
              r == (if "orderedItems" in parent.fields then Ok(parent.fields["orderedItems"])
                    else Err(KeyError("orderedItems")))
    ensures parent.JObj? && !AliasedIs(parent, "type", "Collection") && !AliasedIs(parent, "type", "OrderedCollection") ==>
              r == Ok(JNull)
    ensures !parent.JObj? ==> r.Err? || r == Ok(JNull)
  {
    var ldType :- GetAliased(parent, "type");
    if ldType == JStr("Collection") then Subscript(parent, "items")
    else if ldType == JStr("OrderedCollection") then Subscript(parent, "orderedItems")
    else Ok(JNull)
  }

  /** The parsed documents of an archive, in discovery order. */
  datatype ApData = ApData(jsons: seq<Json>)

  /** What happened to one `.json` file during the directory scan. */
  datatype FileOutcome =
    | Parsed(doc: Json)
      /** `json.JSONDecodeError`: logged and skipped */
    | MalformedJson
      /** `OSError` while opening or reading: logged and skipped */
    | Unreadable
      /** text that is not in the platform encoding: the `UnicodeDecodeError`
          is not caught */
    | BadEncoding

  /** The loop body of the loading generator. */
  function LoadStep(f: FileOutcome): (s: Step<Json>)
    ensures s.Yield? <==> f.Parsed?
    ensures f.Parsed? ==> s == Yield(f.doc)
    ensures s.Raise? <==> f.BadEncoding?
  {
    match f
    case Parsed(doc) => Yield(doc)
    case MalformedJson => Skip
    case Unreadable => Skip
    case BadEncoding => Raise(UnicodeDecodeError)
  }

  /** Loading an archive from the outcomes of its files, in discovery order.
      Loading succeeds unless some file has an encoding error. */
  function FromDir(files: seq<FileOutcome>): (r: Result<ApData>)
    ensures r.Ok? ==> |r.value.jsons| <= |files|
  {
    var run := Run(files, LoadStep);
    if run.stop.Some? then Err(run.stop.value) else Ok(ApData(run.items))
  }

  /** Loading fails exactly when some file has an encoding error. */
  lemma LoadFailsOnlyOnBadEncoding(files: seq<FileOutcome>)
    ensures FromDir(files).Ok? <==> forall i :: 0 <= i < |files| ==> !files[i].BadEncoding?
  {
    RunStopsOnRaise(files, LoadStep);
  }

  /** Loading keeps every parsed document, in discovery order, and nothing
      else: the failed files are dropped without aborting. */
  lemma LoadKeepsParsedInOrder(files: seq<FileOutcome>)
    requires forall i :: 0 <= i < |files| ==> !files[i].BadEncoding?
    ensures FromDir(files).Ok?
    ensures exists idx :: Picks(files, LoadStep, FromDir(files).value.jsons, idx)
  {
    RunPicks(files, LoadStep);
    assert files[..FirstRaise(files, LoadStep)] == files;
  }

  /** Loading a set of files that has a parse failure among them yields the
      documents of the other files only. */
  lemma LoadSkipsMalformed(good: Json, other: Json)
    ensures FromDir([Parsed(good), MalformedJson, Parsed(other), Unreadable]) == Ok(ApData([good, other]))
  {
    var files := [Parsed(good), MalformedJson, Parsed(other), Unreadable];
    assert files[1..][1..][1..][1..] == [];
    assert Run(files[1..][1..][1..], LoadStep) == Yielded([], None);
    assert Run(files[1..][1..], LoadStep) == Yielded([other], None);
    assert Run(files[1..], LoadStep) == Yielded([other], None);
    assert Run(files, LoadStep) == Yielded([good, other], None);
  }

  /** The document's aliased id is readable and differs from `id`. */
  predicate Misses(doc: Json, id: Json) {
    GetAliased(doc, "id").Ok? && GetAliased(doc, "id").value != id
  }

  function FindFrom(docs: seq<Json>, id: Json, k: nat): (r: Result<Option<Json>>)
    requires k <= |docs|
    ensures r == Ok(None) <==> forall j :: k <= j < |docs| ==> Misses(docs[j], id)
    ensures r.Ok? && r.value.Some? ==>
              exists i :: k <= i < |docs| && docs[i] == r.value.value && GetAliased(docs[i], "id") == Ok(id)
                          && forall j :: k <= j < i ==> Misses(docs[j], id)
    ensures r.Err? ==>
              exists i :: k <= i < |docs| && GetAliased(docs[i], "id") == Err(r.error)
                          && forall j :: k <= j < i ==> Misses(docs[j], id)
    decreases |docs| - k
  {
    if k == |docs| then Ok(None)
    else
      var docId :- GetAliased(docs[k], "id");
      if docId == id then Ok(Some(docs[k])) else FindFrom(docs, id, k + 1)
  }

  /** The first document, in order, whose aliased id equals `id`; `None` when
      none does. Reading a document's id can raise `TypeError`, which stops
      the search there. */
  function GetById(data: ApData, id: Json): (r: Result<Option<Json>>)
    ensures r == Ok(None) <==> forall j :: 0 <= j < |data.jsons| ==> Misses(data.jsons[j], id)
    ensures r.Ok? && r.value.Some? ==>
              exists i :: 0 <= i < |data.jsons| && data.jsons[i] == r.value.value
                          && GetAliased(data.jsons[i], "id") == Ok(id)
                          && forall j :: 0 <= j < i ==> Misses(data.jsons[j], id)
    ensures r.Err? ==>
              exists i :: 0 <= i < |data.jsons| && GetAliased(data.jsons[i], "id") == Err(r.error)
                          && forall j :: 0 <= j < i ==> Misses(data.jsons[j], id)
  {
    FindFrom(data.jsons, id, 0)
  }

  /** `FindFrom` returns the document at `i` when it matches and every
      document from `k` up to it misses. */
  lemma {:induction false} FindFromHit(docs: seq<Json>, id: Json, k: nat, i: nat)
    requires k <= i < |docs| && GetAliased(docs[i], "id") == Ok(id)
    requires forall j :: k <= j < i ==> Misses(docs[j], id)
    ensures FindFrom(docs, id, k) == Ok(Some(docs[i]))
    decreases i - k
  {
    if k < i {
      assert Misses(docs[k], id);
      FindFromHit(docs, id, k + 1, i);
    }
  }

  /** The document at `i` is found when it matches and every earlier one
      misses. */
  lemma FirstMatchIsFound(data: ApData, id: Json, i: nat)
    requires i < |data.jsons| && GetAliased(data.jsons[i], "id") == Ok(id)
    requires forall j :: 0 <= j < i ==> Misses(data.jsons[j], id)
    ensures GetById(data, id) == Ok(Some(data.jsons[i]))
  {
    FindFromHit(data.jsons, id, 0, i);
  }

  /** Among documents with distinct readable ids, the one with the given id is
      found wherever it stands. */
  lemma GetByIdUnique(data: ApData, id: Json, i: nat)
    requires i < |data.jsons| && GetAliased(data.jsons[i], "id") == Ok(id)
    requires forall j :: 0 <= j < |data.jsons| && j != i ==> Misses(data.jsons[j], id)
    ensures GetById(data, id) == Ok(Some(data.jsons[i]))
  {
    FirstMatchIsFound(data, id, i);
  }

  /** The loop body of `find_persons`: the aliased id of every `Person`. */
  function PersonStep(node: Json): (s: Step<Json>)
    ensures s.Yield? <==> AliasedIs(node, "type", "Person")
    ensures s.Yield? ==> GetAliased(node, "id") == Ok(s.value)
    ensures s.Raise? <==> GetAliased(node, "type").Err?
  {
    match GetAliased(node, "type")
    case Err(e) => Raise(e)
    case Ok(t) =>
      if t == JStr("Person") then
        match GetAliased(node, "id")
        case Ok(id) => Yield(id)
        case Err(e) => Raise(e)
      else Skip
  }

  /** The ids of the `Person` documents, produced lazily in document order.
      The generator ends normally exactly when every document's type can be
      read. */
  function FindPersons(data: ApData): (r: Yielded<Json>)
    ensures |r.items| <= |data.jsons|
    ensures r.stop.None? <==> forall i :: 0 <= i < |data.jsons| ==> GetAliased(data.jsons[i], "type").Ok?
  {
    RunStopsOnRaise(data.jsons, PersonStep);
    Run(data.jsons, PersonStep)
  }

  /** `find_persons` yields the aliased id of every document whose aliased
      type is `Person`, in document order, and nothing else. */
  lemma FindPersonsExact(data: ApData)
    requires forall i :: 0 <= i < |data.jsons| ==> GetAliased(data.jsons[i], "type").Ok?
    ensures FindPersons(data).stop == None
    ensures exists idx :: Picks(data.jsons, PersonStep, FindPersons(data).items, idx)
  {
    RunPicks(data.jsons, PersonStep);
    assert data.jsons[..FirstRaise(data.jsons, PersonStep)] == data.jsons;
  }

  /** An actor's outbox as constructed: `outbox` is the member list, or
      `JNull` when the outbox node is not a collection. */
  datatype ApOutbox = ApOutbox(data: ApData, actor: Json, outbox: Json)

  /** The error an actor without an `outbox` field raises, whatever the key. */
  function NoOutbox(key: string): Missing {
    ActorHasNoOutbox
  }

  /** Constructing the outbox view of actor `actorId`: actor lookup, its plain
      `outbox` field, outbox lookup, then the outbox's member list. */
  function NewOutbox(data: ApData, actorId: string): (r: Result<ApOutbox>)
    ensures r.Ok? ==> r.value.data == data && GetAliased(r.value.actor, "id") == Ok(JStr(actorId))
    ensures r.Ok? ==> r.value.actor.JObj? && "outbox" in r.value.actor.fields
    ensures r.Ok? ==> exists node :: GetById(data, r.value.actor.fields["outbox"]) == Ok(Some(node))
                                     && GetCollection(node) == Ok(r.value.outbox)
  {
    var actor :- GetById(data, JStr(actorId));
    if actor.None? || !Truthy(actor.value) then Err(MissingAsData(ActorNotFound))
    else
      var outboxId :- Required(Subscript(actor.value, "outbox"), NoOutbox);
      var node :- GetById(data, outboxId);
      if node.None? || !Truthy(node.value) then Err(MissingAsData(OutboxNotFound))
      else
        var members :- GetCollection(node.value);
        Ok(ApOutbox(data, actor.value, members))
  }

  /** Construction succeeds when the actor is found and has a plain
      `outbox` field, that id names a non-empty document, and the document's
      member list can be read: the outbox then holds that actor and that
      member list. */
  lemma OutboxFound(data: ApData, actorId: string, actor: map<string, Json>, node: Json)
    requires GetById(data, JStr(actorId)) == Ok(Some(JObj(actor))) && "outbox" in actor
    requires GetById(data, actor["outbox"]) == Ok(Some(node)) && Truthy(node)
    requires GetCollection(node).Ok?
    ensures NewOutbox(data, actorId).Ok?
    ensures NewOutbox(data, actorId).value.actor == JObj(actor)
    ensures NewOutbox(data, actorId).value.outbox == GetCollection(node).value
  {
    assert Truthy(JObj(actor)) by {
      assert actor["outbox"] in actor.Values;
    }
    assert Required(Subscript(JObj(actor), "outbox"), NoOutbox) == Ok(actor["outbox"]);
  }

  /** An actor id that no document carries raises missing data. */
  lemma ActorAbsentIsMissing(data: ApData, actorId: string)
    requires forall j :: 0 <= j < |data.jsons| ==> Misses(data.jsons[j], JStr(actorId))
    ensures NewOutbox(data, actorId) == Err(MissingAsData(ActorNotFound))
  {
  }

  /** An actor that has no plain `outbox` field raises missing data, even when
      it has an `@outbox` field. */
  lemma ActorWithoutOutboxIsMissing(data: ApData, actorId: string, i: nat, m: map<string, Json>)
    requires i < |data.jsons| && data.jsons[i] == JObj(m)
    requires AliasedIs(JObj(m), "id", actorId) && "outbox" !in m
    requires forall j :: 0 <= j < i ==> Misses(data.jsons[j], JStr(actorId))
    ensures NewOutbox(data, actorId) == Err(MissingAsData(ActorHasNoOutbox))
  {
    FirstMatchIsFound(data, JStr(actorId), i);
    assert "@" + "id" == "@id";
    assert "id" in m || "@id" in m;
  }

  /** An outbox id that no document carries raises missing data. */
  lemma OutboxAbsentIsMissing(data: ApData, actorId: string, i: nat, m: map<string, Json>)
    requires i < |data.jsons| && data.jsons[i] == JObj(m)
    requires AliasedIs(JObj(m), "id", actorId) && "outbox" in m
    requires forall j :: 0 <= j < i ==> Misses(data.jsons[j], JStr(actorId))
    requires forall j :: 0 <= j < |data.jsons| ==> Misses(data.jsons[j], m["outbox"])
    ensures NewOutbox(data, actorId) == Err(MissingAsData(OutboxNotFound))
  {
    FirstMatchIsFound(data, JStr(actorId), i);
    assert "@" + "id" == "@id";
    assert "id" in m || "@id" in m;
  }

  /** Iterating the outbox (`__iter__`): every member in stored order. When
      the outbox node was not a collection the member list is `None`, and
      iterating it raises `TypeError` instead of yielding nothing. */
  function Iterate(o: ApOutbox): (r: Yielded<Json>)
    ensures o.outbox.JList? ==> r == Yielded(o.outbox.elems, None)
    ensures o.outbox == JNull ==> r == Yielded([], Some(TypeError))
  {
    match Members(o.outbox)
    case Ok(xs) => Yielded(xs, None)
    case Err(e) => Yielded([], Some(e))
  }

  /** The test of `notes_only`: the aliased type is `Create` and the aliased
      type of the `object` field is `Note`. The `object` field is read only
      for `Create` members. */
  function IsNoteCreation(item: Json): (r: Result<bool>)
    ensures r == Ok(true) ==> AliasedIs(item, "type", "Create")
    ensures GetAliased(item, "type").Ok? && !AliasedIs(item, "type", "Create") ==> r == Ok(false)
  {
    var t :- GetAliased(item, "type");
    if t != JStr("Create") then Ok(false)
    else
      var obj :- Subscript(item, "object");
      var objType :- GetAliased(obj, "type");
      Ok(objType == JStr("Note"))
  }

  /** `IsNoteCreation` on a mapping, stated on its fields. */
  lemma NoteCreationOnFields(m: map<string, Json>)
    ensures IsNoteCreation(JObj(m)) == Ok(true) <==>
              AliasedIs(JObj(m), "type", "Create") && "object" in m && AliasedIs(m["object"], "type", "Note")
    ensures !AliasedIs(JObj(m), "type", "Create") ==> IsNoteCreation(JObj(m)) == Ok(false)
    ensures AliasedIs(JObj(m), "type", "Create") && "object" !in m ==>
              IsNoteCreation(JObj(m)) == Err(KeyError("object"))
  {
  }

  /** Because of the short-circuit `and`, what a non-`Create` member has under
      `object` never matters, not even when reading it would fail. */
  lemma ObjectUnreadForOtherTypes(m: map<string, Json>, junk: Json)
    requires !AliasedIs(JObj(m), "type", "Create")
    ensures IsNoteCreation(JObj(m["object" := junk])) == IsNoteCreation(JObj(m - {"object"})) == Ok(false)
  {
    var with, without := JObj(m["object" := junk]), JObj(m - {"object"});
    assert GetAliased(with, "type") == GetAliased(JObj(m), "type") by {
      assert "type" in with.fields <==> "type" in m;
      assert "type" in m ==> with.fields["type"] == m["type"];
      assert "@type" in with.fields <==> "@type" in m;
      assert "@type" in m ==> with.fields["@type"] == m["@type"];
    }
    assert GetAliased(without, "type") == GetAliased(JObj(m), "type") by {
      assert "type" in without.fields <==> "type" in m;
      assert "@type" in without.fields <==> "@type" in m;
    }
  }

  /** The loop body of `notes_only`. */
  function NoteStep(item: Json): (s: Step<Json>)
    ensures s.Yield? <==> IsNoteCreation(item) == Ok(true)
    ensures s.Yield? ==> s.value == item
    ensures s.Raise? <==> IsNoteCreation(item).Err?
  {
    match IsNoteCreation(item)
    case Err(e) => Raise(e)
    case Ok(b) => if b then Yield(item) else Skip
  }

  /** `notes_only`: a fresh filtered pass over the stored members. It yields
      no more than there are members, and ends normally exactly when the
      members can be iterated and no member's test raises. */
  function NotesOnly(o: ApOutbox): (r: Yielded<Json>)
    ensures Members(o.outbox).Ok? ==> |r.items| <= |Members(o.outbox).value|
    ensures Members(o.outbox).Ok? ==>
              (r.stop.None? <==> forall i :: 0 <= i < |Members(o.outbox).value| ==>
                                              IsNoteCreation(Members(o.outbox).value[i]).Ok?)
    ensures Members(o.outbox).Err? ==> r == Yielded([], Some(Members(o.outbox).error))
  {
    match Members(o.outbox)
    case Ok(xs) =>
      RunStopsOnRaise(xs, NoteStep);
      Run(xs, NoteStep)
    case Err(e) => Yielded([], Some(e))
  }

  /** `notes_only` yields exactly the members that are note creations, each
      once, in stored order, up to the first member whose test raises. */
  lemma NotesOnlyExact(o: ApOutbox, xs: seq<Json>)
    requires Members(o.outbox) == Ok(xs)
    ensures var k := FirstRaise(xs, NoteStep);
            && NotesOnly(o).stop == (if k < |xs| then Some(IsNoteCreation(xs[k]).error) else None)
            && exists idx :: Picks(xs[..k], NoteStep, NotesOnly(o).items, idx)
  {
    assert NotesOnly(o) == Run(xs, NoteStep);
    RunPicks(xs, NoteStep);
  }

  /** Every yielded member is a note creation taken from the stored members. */
  lemma NotesOnlySound(o: ApOutbox, xs: seq<Json>)
    requires Members(o.outbox) == Ok(xs)
    ensures forall v :: v in NotesOnly(o).items ==> v in xs && IsNoteCreation(v) == Ok(true)
  {
    var out := NotesOnly(o).items;
    NotesOnlyExact(o, xs);
    var k := FirstRaise(xs, NoteStep);
    var idx :| Picks(xs[..k], NoteStep, out, idx);
    forall j | 0 <= j < |out|
      ensures out[j] in xs && IsNoteCreation(out[j]) == Ok(true)
    {
      var i := idx[j];
      assert NoteStep(xs[..k][i]) == Yield(out[j]);
      assert xs[..k][i] == xs[i];
    }
  }

  /** An outbox node that is not a collection leaves no member list, and then
      both ways of iterating raise `TypeError`. */
  lemma NonCollectionOutboxFails(o: ApOutbox)
    requires o.outbox == JNull
    ensures Iterate(o) == Yielded([], Some(TypeError))
    ensures NotesOnly(o) == Yielded([], Some(TypeError))
  {
  }
}

=== FILE: generators.dfy ===
/** Python generators as values. Running a generator over a source sequence
    gives the values it yielded, in order, and the exception that ended it,
    if one did: a consumer sees every yielded value before the exception. */
module Generators {
  import opened PyJson

  /** What one pass of a generator's loop body does with one source element. */
  datatype Step<+U> = Skip | Yield(value: U) | Raise(error: Error)

  /** One complete run of a generator. */
  datatype Yielded<+U> = Yielded(items: seq<U>, stop: Option<Error>)

  /** The run of a generator whose loop visits `xs` in order and handles each
      element as `step` says. */
  function Run<T, U>(xs: seq<T>, step: T -> Step<U>): (r: Yielded<U>)
    ensures |r.items| <= |xs|
    decreases |xs|
  {
    if |xs| == 0 then Yielded([], None)
    else
      match step(xs[0])
      case Skip => Run(xs[1..], step)
      case Yield(v) =>
        var rest := Run(xs[1..], step);
        Yielded([v] + rest.items, rest.stop)
      case Raise(e) => Yielded([], Some(e))
  }

  /** A run ends normally exactly when no element's step raises. */
  lemma {:induction false} RunStopsOnRaise<T, U>(xs: seq<T>, step: T -> Step<U>)
    ensures Run(xs, step).stop.None? <==> forall i :: 0 <= i < |xs| ==> !step(xs[i]).Raise?
    decreases |xs|
  {
    if |xs| > 0 {
      RunStopsOnRaise(xs[1..], step);
      assert forall i :: 1 <= i < |xs| ==> xs[i] == xs[1..][i - 1];
    }
  }

  /** The index of the first element whose step raises, or `|xs|`. */
  function FirstRaise<T, U>(xs: seq<T>, step: T -> Step<U>): (k: nat)
    ensures k <= |xs|
    ensures forall i :: 0 <= i < k ==> !step(xs[i]).Raise?
    ensures k < |xs| ==> step(xs[k]).Raise?
    decreases |xs|
  {
    if |xs| == 0 || step(xs[0]).Raise? then 0
    else 1 + FirstRaise(xs[1..], step)
  }

  /** `out` is exactly the values yielded by the elements of `src`, in source
      order: `idx` lists, strictly increasing, the positions of the elements
      that yield, and every yielding position is listed. */
  ghost predicate Picks<T, U>(src: seq<T>, step: T -> Step<U>, out: seq<U>, idx: seq<int>) {
    && |idx| == |out|
    && (forall j :: 0 <= j < |idx| ==> 0 <= idx[j] < |src| && step(src[idx[j]]) == Yield(out[j]))
    && (forall j, k :: 0 <= j < k < |idx| ==> idx[j] < idx[k])
    && (forall i :: 0 <= i < |src| && step(src[i]).Yield? ==> i in idx)
  }

  function Shift(idx: seq<int>): (r: seq<int>)
    ensures |r| == |idx| && forall j :: 0 <= j < |idx| ==> r[j] == idx[j] + 1
  {
    seq(|idx|, j requires 0 <= j < |idx| => idx[j] + 1)
  }

  /** Prepending an element that does not yield keeps the selection. */
  lemma PicksSkip<T, U>(x: T, src: seq<T>, step: T -> Step<U>, out: seq<U>, idx: seq<int>)
    requires !step(x).Yield?
    requires Picks(src, step, out, idx)
    ensures Picks([x] + src, step, out, Shift(idx))
  {
    var src' := [x] + src;
    var idx' := Shift(idx);
    forall i | 0 <= i < |src'| && step(src'[i]).Yield?
      ensures i in idx'
    {
      assert src'[i] == src[i - 1];
      var j :| 0 <= j < |idx| && idx[j] == i - 1;
      assert idx'[j] == i;
    }
  }

  /** Prepending an element that yields `v` puts `v` first. */
  lemma PicksYield<T, U>(x: T, src: seq<T>, step: T -> Step<U>, out: seq<U>, idx: seq<int>)
    requires step(x).Yield?
    requires Picks(src, step, out, idx)
    ensures Picks([x] + src, step, [step(x).value] + out, [0] + Shift(idx))
  {
    YieldKeepsValues(x, src, step, out, idx);
    ConsShiftIncreasing(idx);
    YieldKeepsCover(x, src, step, out, idx);
  }

  lemma YieldKeepsValues<T, U>(x: T, src: seq<T>, step: T -> Step<U>, out: seq<U>, idx: seq<int>)
    requires step(x).Yield?
    requires Picks(src, step, out, idx)
    ensures var src', out', idx' := [x] + src, [step(x).value] + out, [0] + Shift(idx);
            forall j :: 0 <= j < |idx'| ==> 0 <= idx'[j] < |src'| && step(src'[idx'[j]]) == Yield(out'[j])
  {
    var src', out', sh := [x] + src, [step(x).value] + out, Shift(idx);
    var idx' := [0] + sh;
    forall j | 0 <= j < |idx'|
      ensures 0 <= idx'[j] < |src'| && step(src'[idx'[j]]) == Yield(out'[j])
    {
      if j > 0 {
        assert idx'[j] == sh[j - 1] == idx[j - 1] + 1;
        assert src'[idx'[j]] == src[idx[j - 1]];
        assert out'[j] == out[j - 1];
      }
    }
  }

  lemma ConsShiftIncreasing(idx: seq<int>)
    requires forall j :: 0 <= j < |idx| ==> 0 <= idx[j]
    requires forall j, k :: 0 <= j < k < |idx| ==> idx[j] < idx[k]
    ensures var idx' := [0] + Shift(idx);
            forall j, k :: 0 <= j < k < |idx'| ==> idx'[j] < idx'[k]
  {
    var idx' := [0] + Shift(idx);
    forall j, k | 0 <= j < k < |idx'|
      ensures idx'[j] < idx'[k]
    {
      assert idx'[k] == idx[k - 1] + 1;
      if j > 0 {
        assert idx'[j] == idx[j - 1] + 1;
      }
    }
  }

  lemma YieldKeepsCover<T, U>(x: T, src: seq<T>, step: T -> Step<U>, out: seq<U>, idx: seq<int>)
    requires Picks(src, step, out, idx)
    ensures var src', idx' := [x] + src, [0] + Shift(idx);
            forall i :: 0 <= i < |src'| && step(src'[i]).Yield? ==> i in idx'
  {
    var src', idx' := [x] + src, [0] + Shift(idx);
    forall i | 0 <= i < |src'| && step(src'[i]).Yield?
      ensures i in idx'
    {
      if i > 0 {
        assert src'[i] == src[i - 1];
        var j :| 0 <= j < |idx| && idx[j] == i - 1;
        assert idx'[j + 1] == i;
      }
    }
  }

  /** A run stops at the first element whose step raises, with that
      exception, and yields exactly the values of the yielding elements before
      it, in order. */
  lemma {:induction false} RunPicks<T, U>(xs: seq<T>, step: T -> Step<U>)
    ensures var k := FirstRaise(xs, step);
            && Run(xs, step).stop == (if k < |xs| then Some(step(xs[k]).error) else None)
            && exists idx :: Picks(xs[..k], step, Run(xs, step).items, idx)
    decreases |xs|
  {
    var k := FirstRaise(xs, step);
    if |xs| == 0 || step(xs[0]).Raise? {
      assert Picks(xs[..k], step, Run(xs, step).items, []);
    } else {
      var tail := xs[1..];
      RunPicks(tail, step);
      var k' := FirstRaise(tail, step);
      var idx :| Picks(tail[..k'], step, Run(tail, step).items, idx);
      assert xs[..k] == [xs[0]] + tail[..k'];
      if step(xs[0]).Yield? {
        PicksYield(xs[0], tail[..k'], step, Run(tail, step).items, idx);
      } else {
        PicksSkip(xs[0], tail[..k'], step, Run(tail, step).items, idx);
      }
    }
  }

  /** Once the run over a prefix has raised, the rest of the source is never
      visited. */
  lemma {:induction false} RunStopped<T, U>(xs: seq<T>, n: nat, step: T -> Step<U>)
    requires n <= |xs|
    requires Run(xs[..n], step).stop.Some?
    ensures Run(xs, step) == Run(xs[..n], step)
    decreases n
  {
    assert n > 0;
    assert xs[..n][0] == xs[0];
    assert xs[..n][1..] == xs[1..][..n - 1];
    match step(xs[0])
    case Skip =>
      RunStopped(xs[1..], n - 1, step);
    case Yield(v) =>
      RunStopped(xs[1..], n - 1, step);
    case Raise(e) =>
  }
}

=== FILE: perkeep.dfy ===
/** The part of the Perkeep client the uploader relies on: blob references,
    claims, and a store connection that answers attribute queries, signs
    permanodes, uploads files and accepts one batched put. The store keeps a
    ghost log of every call made on it. */
module Perkeep {
  import opened PyJson

  type Bytes = seq<bv8>

  /** A blob reference. Content-addressed blobs are named by what they hold;
      a permanode is named by the signing nonce it was made with. */
  datatype Ref =
    | PermanodeRef(nonce: nat)
      /** the blob holding the serialized activity */
    | ContentRef(doc: Json)
      /** the file schema blob of an uploaded file */
    | FileRef(name: string, data: Bytes)

  datatype Op = Set | Add

  datatype ClaimValue = Value(v: Json) | RefTo(ref: Ref)

  /** A claim on a permanode: `(attribute, set/add, value)`. */
  datatype Claim = Claim(attr: string, op: Op, value: ClaimValue)

  /** One call made on the store. */
  datatype Event =
    | Queried(attr: string, value: ClaimValue)
    | Signed(pnode: Ref)
    | Uploaded(name: string, data: Bytes)
    | Put(pnode: Ref, blob: Ref, claims: seq<Claim>)

  /** The attribute bindings a batch of claims makes searchable. */
  function Bindings(claims: seq<Claim>): set<(string, ClaimValue)> {
    set c | c in claims :: (c.attr, c.value)
  }

  /** The store state the uploader can observe. */
  datatype StoreState = StoreState(indexed: set<(string, ClaimValue)>, nonce: nat)

  class Store {
    /** every (attribute, value) pair of every claim put so far */
    var indexed: set<(string, ClaimValue)>
    /** the number of permanodes signed so far */
    var nonce: nat
    ghost var log: seq<Event>

    function State(): StoreState
      reads this
    {
      StoreState(indexed, nonce)
    }

    constructor ()
      ensures State() == StoreState({}, 0) && log == []
    {
      indexed, nonce := {}, 0;
      log := [];
    }

    /** `searcher.query('attr:<attr>:"<value>"')`, truthy when a claim with
        that attribute and value has been put. */
    method Query(attr: string, value: ClaimValue) returns (found: bool)
      modifies this`log
      ensures found <==> (attr, value) in indexed
      ensures State() == old(State()) && log == old(log) + [Queried(attr, value)]
    {
      found := (attr, value) in indexed;
      log := log + [Queried(attr, value)];
    }

    /** `make_permanode().to_blob(signer)`. */
    method MakePermanode() returns (pnode: Ref)
      modifies this`nonce, this`log
      ensures pnode == PermanodeRef(old(nonce))
      ensures State() == StoreState(old(indexed), old(nonce) + 1)
      ensures log == old(log) + [Signed(pnode)]
    {
      pnode := PermanodeRef(nonce);
      nonce := nonce + 1;
      log := log + [Signed(pnode)];
    }

    /** `uploadhelper.upload_file(name, f)`. */
    method UploadFile(name: string, data: Bytes) returns (ref: Ref)
      modifies this`log
      ensures ref == FileRef(name, data)
      ensures State() == old(State()) && log == old(log) + [Uploaded(name, data)]
    {
      ref := FileRef(name, data);
      log := log + [Uploaded(name, data)];
    }

    /** `blobs.put_multi(pnode, object, *claim_blobs)`. */
    method PutMulti(pnode: Ref, blob: Ref, claims: seq<Claim>)
      modifies this`indexed, this`log
      ensures State() == StoreState(old(indexed) + Bindings(claims), old(nonce))
      ensures log == old(log) + [Put(pnode, blob, claims)]
    {
      indexed := indexed + Bindings(claims);
      log := log + [Put(pnode, blob, claims)];
    }
  }
}

=== FILE: pk_exporter.dfy ===
/** Publishing note-creation activities to a Perkeep store: the duplicate
    check on `asId`, the required fields checked before any write, the claim
    list in its fixed order, attachment URLs resolved under the archive root
    and uploaded before one batched put, and the added/skipped counters of a
    whole run. */
module PkExporter {
  import opened PyJson
  import opened Generators
  import opened Text
  import opened Perkeep
  import ApImporter

  /** `root_dir / rel`, kept apart (path normalisation is not modelled). */
  datatype LocalPath = LocalPath(root: string, rel: string)

  /** The readable local files and their contents. */
  type FileSystem = map<LocalPath, Bytes>

  function PathText(p: LocalPath): string {
    p.root + "/" + p.rel
  }

  /** `Path.name`: the text after the last `/`. */
  function BaseName(rel: string): (name: string)
    ensures |name| <= |rel| && name == rel[|rel| - |name|..]
    ensures forall i :: 0 <= i < |name| ==> name[i] != '/'
    ensures |name| < |rel| ==> rel[|rel| - |name| - 1] == '/'
    decreases |rel|
  {
    if |rel| == 0 || rel[|rel| - 1] == '/' then ""
    else BaseName(rel[..|rel| - 1]) + [rel[|rel| - 1]]
  }

  /** The local file an attachment URL names: exactly one leading `/` is
      dropped (archive URLs are relative to the archive root), the rest is
      percent-decoded and placed under `root`. Indexing an empty URL raises
      `IndexError`. */
  function ResolveUrl(root: string, url: Json): (r: Result<LocalPath>)
    ensures r.Ok? <==> url.JStr? && url.s != []
    ensures r.Ok? ==> r.value.root == root
    ensures url == JStr("") ==> r == Err(IndexError)
    ensures !url.JStr? ==> r == Err(TypeError)
  {
    match url
    case JStr(s) =>
      if |s| == 0 then Err(IndexError)
      else
        var pathStr := if s[0] == '/' then s[1..] else s;
        Ok(LocalPath(root, Unquote(pathStr)))
    case _ => Err(TypeError)
  }

  /** A URL is a leading `/` and a percent-encoded archive path: it resolves
      to that path under the root, with only the one `/` removed. */
  lemma ResolveEncodedPath(root: string, path: string)
    ensures ResolveUrl(root, JStr("/" + Quote(path))) == Ok(LocalPath(root, path))
  {
    var s := "/" + Quote(path);
    assert s[0] == '/' && s[1..] == Quote(path);
    UnquoteQuote(path);
  }

  /** A URL of unreserved characters after its leading `/` names that very
      path under the root. */
  lemma ResolvePlainPath(root: string, path: string)
    requires forall i :: 0 <= i < |path| ==> Unreserved(path[i])
    ensures ResolveUrl(root, JStr("/" + path)) == Ok(LocalPath(root, path))
  {
    QuoteUnreserved(path);
    ResolveEncodedPath(root, path);
  }

  /** A URL without a leading `/` is kept whole: a percent-encoded path that
      does not start with `/` names that path under the root. */
  lemma ResolveRelativePath(root: string, path: string)
    requires path != [] && path[0] != '/'
    ensures ResolveUrl(root, JStr(Quote(path))) == Ok(LocalPath(root, path))
  {
    var q := Quote(path);
    assert q[0] == path[0] || q[0] == '%';
    UnquoteQuote(path);
  }

  /** Escapes may be written in lower case: `/a%2fb` names `a/b`. */
  lemma ResolveLowercaseEscape(root: string)
    ensures ResolveUrl(root, JStr("/a%2fb")) == Ok(LocalPath(root, "a/b"))
  {
    var s := "a%2fb";
    assert s[1..] == "%2fb" && "%2fb"[3..] == "b";
    assert HexValue('2') * 16 + HexValue('f') == 47;
    assert Unquote("%2fb") == "/" + Unquote("b");
    assert Unquote(s) == "a/b";
    assert "/a%2fb"[1..] == s;
  }

  /** The archive's usual form, `/media/foo%20bar.png`: an escaped space
      between two unescaped parts names the file with a space in it. */
  lemma ResolveEscapedSpace(root: string, head: string, tail: string)
    requires forall i :: 0 <= i < |head| ==> head[i] != '%'
    requires forall i :: 0 <= i < |tail| ==> tail[i] != '%'
    ensures ResolveUrl(root, JStr("/" + head + "%20" + tail)) == Ok(LocalPath(root, head + " " + tail))
  {
    var s := "/" + head + "%20" + tail;
    assert s[0] == '/' && s[1..] == head + ("%20" + tail);
    UnquotePlainPrefix(head, "%20" + tail);
    var rest := "%20" + tail;
    assert rest[0] == '%' && rest[1] == '2' && rest[2] == '0' && rest[3..] == tail;
    UnquoteWithoutPercent(tail);
    assert HexValue('2') * 16 + HexValue('0') == 32;
    assert Unquote(rest) == [' '] + tail;
    assert Unquote(s[1..]) == head + " " + tail;
  }

  /** A file to upload for one attachment. */
  datatype Upload = Upload(name: string, path: LocalPath, data: Bytes)

  function UploadRef(u: Upload): Ref {
    FileRef(u.name, u.data)
  }

  /** One turn of the attachment loop before the upload: the `url` field (a
      plain `KeyError` when absent), the local path, and opening the file
      (`OSError` when it cannot be read). The file is uploaded under its base
      name. */
  function OpenAttachment(root: string, fs: FileSystem, attachment: Json): (r: Result<Upload>)
    ensures r.Ok? ==> r.value.path in fs && r.value.data == fs[r.value.path] && r.value.path.root == root
    ensures r.Ok? ==> r.value.name == BaseName(r.value.path.rel)
    ensures attachment.JObj? && "url" !in attachment.fields ==> r == Err(KeyError("url"))
  {
    var url :- Subscript(attachment, "url");
    var path :- ResolveUrl(root, url);
    if path in fs then Ok(Upload(BaseName(path.rel), path, fs[path]))
    else Err(OSError(PathText(path)))
  }

  /** The file opened for an attachment is the one its `url` names: it opens
      exactly when that path resolves and is readable, and otherwise the
      resolution's exception or an `OSError` for the path is raised. */
  lemma OpenAttachmentFollowsUrl(root: string, fs: FileSystem, attachment: Json)
    ensures var r := OpenAttachment(root, fs, attachment);
            r.Ok? ==> attachment.JObj? && "url" in attachment.fields
                      && ResolveUrl(root, attachment.fields["url"]) == Ok(r.value.path)
    ensures attachment.JObj? && "url" in attachment.fields ==>
              var r := OpenAttachment(root, fs, attachment);
              var path := ResolveUrl(root, attachment.fields["url"]);
              && (path.Err? ==> r == Err(path.error))
              && (path.Ok? && path.value !in fs ==> r == Err(OSError(PathText(path.value))))
              && (path.Ok? && path.value in fs ==> r.Ok?)
    ensures !attachment.JObj? ==> OpenAttachment(root, fs, attachment) == Err(TypeError)
  {
  }

  /** What the attachment loop does: the files opened, in attachment order,
      until the first attachment that raises, and that exception. */
  datatype UploadPlan = UploadPlan(uploads: seq<Upload>, failure: Option<Error>)

  /** One more turn of the loop: after an exception nothing happens; a file
      that opened is uploaded; an attachment that raised ends the loop. */
  function Extend(prev: UploadPlan, file: Result<Upload>): UploadPlan {
    if prev.failure.Some? then prev
    else
      match file
      case Ok(u) => UploadPlan(prev.uploads + [u], None)
      case Err(e) => UploadPlan(prev.uploads, Some(e))
  }

  function PlanUploads(root: string, fs: FileSystem, atts: seq<Json>): (p: UploadPlan)
    ensures |p.uploads| <= |atts|
    decreases |atts|
  {
    if |atts| == 0 then UploadPlan([], None)
    else Extend(PlanUploads(root, fs, atts[..|atts| - 1]), OpenAttachment(root, fs, atts[|atts| - 1]))
  }

  /** The loop over given outcomes of opening each attachment: a reference
      reading of `PlanUploads` that does not look inside the opening. */
  function FirstFailure(files: seq<Result<Upload>>): (p: UploadPlan)
    ensures |p.uploads| <= |files|
    decreases |files|
  {
    if |files| == 0 then UploadPlan([], None)
    else Extend(FirstFailure(files[..|files| - 1]), files[|files| - 1])
  }

  /** Opening each attachment in turn. */
  function Opened(root: string, fs: FileSystem, atts: seq<Json>): (files: seq<Result<Upload>>)
    ensures |files| == |atts|
    decreases |atts|
  {
    if |atts| == 0 then []
    else Opened(root, fs, atts[..|atts| - 1]) + [OpenAttachment(root, fs, atts[|atts| - 1])]
  }

  lemma {:induction false} OpenedAt(root: string, fs: FileSystem, atts: seq<Json>)
    ensures forall n {:trigger Opened(root, fs, atts)[n]} :: 0 <= n < |atts| ==>
              Opened(root, fs, atts)[n] == OpenAttachment(root, fs, atts[n])
    decreases |atts|
  {
    if |atts| > 0 {
      var init := atts[..|atts| - 1];
      OpenedAt(root, fs, init);
      forall n | 0 <= n < |init|
        ensures Opened(root, fs, atts)[n] == OpenAttachment(root, fs, atts[n])
      {
        assert atts[n] == init[n];
      }
    }
  }

  /** Planning the uploads is running the loop over the opening outcomes. */
  lemma {:induction false} PlanIsFirstFailure(root: string, fs: FileSystem, atts: seq<Json>)
    ensures PlanUploads(root, fs, atts) == FirstFailure(Opened(root, fs, atts))
    decreases |atts|
  {
    if |atts| > 0 {
      var init := atts[..|atts| - 1];
      PlanIsFirstFailure(root, fs, init);
      var files := Opened(root, fs, atts);
      assert files[..|atts| - 1] == Opened(root, fs, init);
    }
  }

  /** Without an exception the n-th upload is the n-th file; with one, every
      file before the failing one was uploaded and the failing one raised. */
  lemma {:induction false} FirstFailureInOrder(files: seq<Result<Upload>>)
    ensures var p := FirstFailure(files);
            p.failure.None? ==>
              |p.uploads| == |files| && forall n :: 0 <= n < |files| ==> files[n] == Ok(p.uploads[n])
    ensures var p := FirstFailure(files);
            p.failure.Some? ==>
              var k := |p.uploads|;
              && k < |files| && files[k] == Err(p.failure.value)
              && forall n :: 0 <= n < k ==> files[n] == Ok(p.uploads[n])
    decreases |files|
  {
    if |files| > 0 {
      var init := files[..|files| - 1];
      FirstFailureInOrder(init);
      assert forall n :: 0 <= n < |init| ==> files[n] == init[n];
    }
  }

  /** The loop visits attachments in order: without an exception, the n-th
      upload is the n-th attachment's file; with one, every attachment before
      the failing one was uploaded and the failing one raised. */
  lemma PlanUploadsInOrder(root: string, fs: FileSystem, atts: seq<Json>)
    ensures var p := PlanUploads(root, fs, atts);
            p.failure.None? ==>
              |p.uploads| == |atts| &&
              forall n :: 0 <= n < |atts| ==> OpenAttachment(root, fs, atts[n]) == Ok(p.uploads[n])
    ensures var p := PlanUploads(root, fs, atts);
            p.failure.Some? ==>
              var k := |p.uploads|;
              && k < |atts| && OpenAttachment(root, fs, atts[k]) == Err(p.failure.value)
              && forall n :: 0 <= n < k ==> OpenAttachment(root, fs, atts[n]) == Ok(p.uploads[n])
  {
    PlanIsFirstFailure(root, fs, atts);
    FirstFailureInOrder(Opened(root, fs, atts));
    OpenedAt(root, fs, atts);
  }

  /** Once an attachment has raised, the later ones are never opened. */
  lemma {:induction false} PlanStopped(root: string, fs: FileSystem, atts: seq<Json>, n: nat)
    requires n <= |atts| && PlanUploads(root, fs, atts[..n]).failure.Some?
    ensures PlanUploads(root, fs, atts) == PlanUploads(root, fs, atts[..n])
    decreases |atts| - n
  {
    if n < |atts| {
      assert atts[..n + 1][..n] == atts[..n];
      PlanStopped(root, fs, atts, n + 1);
    } else {
      assert atts[..n] == atts;
    }
  }

  function UploadEvents(ups: seq<Upload>): (es: seq<Event>)
    ensures |es| == |ups|
    decreases |ups|
  {
    if |ups| == 0 then []
    else UploadEvents(ups[..|ups| - 1]) + [Uploaded(ups[|ups| - 1].name, ups[|ups| - 1].data)]
  }

  /** One upload call per upload, in order. */
  lemma {:induction false} UploadEventsAt(ups: seq<Upload>)
    ensures forall i :: 0 <= i < |ups| ==> UploadEvents(ups)[i] == Uploaded(ups[i].name, ups[i].data)
    decreases |ups|
  {
    if |ups| > 0 {
      UploadEventsAt(ups[..|ups| - 1]);
    }
  }

  /** One more upload extends the attachment claims and the upload calls by
      one each. */
  lemma UploadAppended(log0: seq<Event>, done: seq<Upload>, u: Upload)
    ensures AttachmentClaims(done + [u]) == AttachmentClaims(done) + [Claim(AttachmentAttr(|done|), Set, RefTo(UploadRef(u)))]
    ensures (log0 + UploadEvents(done)) + [Uploaded(u.name, u.data)] == log0 + UploadEvents(done + [u])
  {
    assert (done + [u])[..|done|] == done;
    ConcatAssoc(log0, UploadEvents(done), [Uploaded(u.name, u.data)]);
  }

  /** The attribute `camliPath:attachment{n}`. */
  function AttachmentAttr(n: nat): string {
    "camliPath:attachment" + NatToString(n)
  }

  /** Distinct attachments are bound under distinct attributes. */
  lemma AttachmentAttrsDistinct(m: nat, n: nat)
    requires m != n
    ensures AttachmentAttr(m) != AttachmentAttr(n)
  {
    var prefix := "camliPath:attachment";
    if AttachmentAttr(m) == AttachmentAttr(n) {
      assert NatToString(m) == AttachmentAttr(m)[|prefix|..];
      assert NatToString(n) == AttachmentAttr(n)[|prefix|..];
      NatToStringInjective(m, n);
    }
  }

  /** The claims appended in the attachment loop: the n-th upload is bound
      under `camliPath:attachment{n}`. */
  function AttachmentClaims(ups: seq<Upload>): (cs: seq<Claim>)
    ensures |cs| == |ups|
    decreases |ups|
  {
    if |ups| == 0 then []
    else
      var n := |ups| - 1;
      AttachmentClaims(ups[..n]) + [Claim(AttachmentAttr(n), Set, RefTo(UploadRef(ups[n])))]
  }

  /** The n-th attachment claim binds the n-th upload. */
  lemma {:induction false} AttachmentClaimsAt(ups: seq<Upload>)
    ensures forall n :: 0 <= n < |ups| ==>
              AttachmentClaims(ups)[n] == Claim(AttachmentAttr(n), Set, RefTo(UploadRef(ups[n])))
    decreases |ups|
  {
    if |ups| > 0 {
      AttachmentClaimsAt(ups[..|ups| - 1]);
    }
  }

  const NoteType := "ActivityStreams:Create:Note"

  /** The fields read in the `try` block of `upload_item`. */
  datatype Fields = Fields(objId: Json, actor: Json, content: Json, published: Json, attachment: Json)

  /** The claims built before the attachment loop, in their fixed order. */
  function BaseClaims(asId: Json, blob: Ref, f: Fields): seq<Claim> {
    [ Claim("camliType", Set, Value(JStr(NoteType))),
      Claim("camliPath:object", Add, RefTo(blob)),
      Claim("asId", Set, Value(asId)),
      Claim("asObjectId", Set, Value(f.objId)),
      Claim("asActor", Set, Value(f.actor)),
      Claim("camliPath:object", Set, RefTo(blob)),
      Claim("content", Set, Value(f.content)),
      Claim("startDate", Set, Value(f.published)) ]
  }

  function Claims(asId: Json, blob: Ref, f: Fields, ups: seq<Upload>): seq<Claim> {
    BaseClaims(asId, blob, f) + AttachmentClaims(ups)
  }

  /** The claim list of a publication, position by position: the eight fixed
      claims, then one per attachment in attachment order. */
  lemma ClaimsLayout(asId: Json, blob: Ref, f: Fields, ups: seq<Upload>)
    ensures var cs := Claims(asId, blob, f, ups);
      && |cs| == 8 + |ups|
      && cs[0] == Claim("camliType", Set, Value(JStr(NoteType)))
      && cs[1] == Claim("camliPath:object", Add, RefTo(blob))
      && cs[2] == Claim("asId", Set, Value(asId))
      && cs[3] == Claim("asObjectId", Set, Value(f.objId))
      && cs[4] == Claim("asActor", Set, Value(f.actor))
      && cs[5] == Claim("camliPath:object", Set, RefTo(blob))
      && cs[6] == Claim("content", Set, Value(f.content))
      && cs[7] == Claim("startDate", Set, Value(f.published))
      && forall n :: 0 <= n < |ups| ==> cs[8 + n] == Claim(AttachmentAttr(n), Set, RefTo(UploadRef(ups[n])))
  {
    AttachmentClaimsAt(ups);
  }

  /** The activity id, which must be truthy. */
  function ItemId(item: Json): (r: Result<Json>)
    ensures r.Ok? ==> Truthy(r.value) && ApImporter.GetAliased(item, "id") == Ok(r.value)
    ensures ApImporter.GetAliased(item, "id").Ok? && !Truthy(ApImporter.GetAliased(item, "id").value) ==>
              r == Err(MissingAsData(ItemHasNoId))
    ensures ApImporter.GetAliased(item, "id").Err? || Truthy(ApImporter.GetAliased(item, "id").value) ==>
              r == ApImporter.GetAliased(item, "id")
  {
    var asId :- ApImporter.GetAliased(item, "id");
    if !Truthy(asId) then Err(MissingAsData(ItemHasNoId)) else Ok(asId)
  }

  /** A `KeyError` inside the `try` block becomes missing data naming the
      key; everything else passes through. */
  function Reraised<T>(r: Result<T>): (r': Result<T>)
    ensures r.Err? && r.error.KeyError? ==> r' == Err(MissingAsData(RequiredDataMissing(r.error.key)))
    ensures !(r.Err? && r.error.KeyError?) ==> r' == r
    ensures r'.Err? ==> !r'.error.KeyError?
  {
    Required(r, key => RequiredDataMissing(key))
  }

  /** The item is a dict whose `object` is a dict with a truthy aliased id. */
  predicate ObjectReadable(item: Json) {
    && item.JObj? && "object" in item.fields && item.fields["object"].JObj?
    && Truthy(ApImporter.GetAliased(item.fields["object"], "id").value)
  }

  /** The `try` block of `upload_item`, which raises before any upload or
      put: a missing `object`, `actor`, `object.content` or `published`
      field, or a falsy object id. */
  function Validate(item: Json): (r: Result<Fields>)
    ensures r.Ok? ==> item.JObj? && "object" in item.fields && item.fields["object"].JObj?
    ensures r.Ok? ==>
              var obj := item.fields["object"].fields;
              && "actor" in item.fields && "published" in item.fields && "content" in obj
              && r.value.actor == item.fields["actor"]
              && r.value.published == item.fields["published"]
              && r.value.content == obj["content"]
              && r.value.attachment == DictGet(obj, "attachment")
              && Truthy(r.value.objId) && ApImporter.GetAliased(item.fields["object"], "id") == Ok(r.value.objId)
    ensures item.JObj? && "object" !in item.fields ==> r == Err(MissingAsData(RequiredDataMissing("object")))
    ensures item.JObj? && "object" in item.fields && item.fields["object"].JObj? &&
            !Truthy(ApImporter.GetAliased(item.fields["object"], "id").value) ==>
              r == Err(MissingAsData(ObjectHasNoId))
    ensures r.Err? ==> r.error.MissingAsData? || r.error == TypeError
    ensures r == Err(TypeError) ==> !item.JObj? || ("object" in item.fields && !item.fields["object"].JObj?)
    ensures !item.JObj? ==> r == Err(TypeError)
    ensures ObjectReadable(item) && "actor" !in item.fields ==>
              r == Err(MissingAsData(RequiredDataMissing("actor")))
    ensures ObjectReadable(item) && "actor" in item.fields && "content" !in item.fields["object"].fields ==>
              r == Err(MissingAsData(RequiredDataMissing("content")))
    ensures ObjectReadable(item) && "actor" in item.fields && "content" in item.fields["object"].fields &&
            "published" !in item.fields ==>
              r == Err(MissingAsData(RequiredDataMissing("published")))
    ensures ObjectReadable(item) && "actor" in item.fields && "content" in item.fields["object"].fields &&
            "published" in item.fields ==>
              r.Ok?
  {
    var obj :- Reraised(Subscript(item, "object"));
    var objId :- ApImporter.GetAliased(obj, "id");
    if !Truthy(objId) then Err(MissingAsData(ObjectHasNoId))
    else
      var actor :- Reraised(Subscript(item, "actor"));
      var content :- Reraised(Subscript(obj, "content"));
      var published :- Reraised(Subscript(item, "published"));
      Ok(Fields(objId, actor, content, published, DictGet(obj.fields, "attachment")))
  }

  /** The attachments looped over: none unless `object.attachment` is truthy. */
  function AttachmentList(f: Fields): (r: Result<seq<Json>>)
    ensures f.attachment == JNull ==> r == Ok([])
    ensures f.attachment.JList? ==> r == Ok(f.attachment.elems)
    ensures r.Err? ==> Truthy(f.attachment) && Members(f.attachment) == r
  {
    if Truthy(f.attachment) then Members(f.attachment) else Ok([])
  }

  /** What one `upload_item` call does: its result, the calls it makes on the
      store, and the store state after it. */
  datatype Publication = Publication(result: Result<nat>, events: seq<Event>, after: StoreState)

  function Publish(item: Json, root: string, fs: FileSystem, s: StoreState): (r: Publication)
    ensures r.result.Ok? ==> r.result.value <= 1
    ensures r.events == [] <==> ItemId(item).Err?
    ensures s.indexed <= r.after.indexed && r.after.nonce <= s.nonce + 1
  {
    match ItemId(item)
    case Err(e) => Publication(Err(e), [], s)
    case Ok(asId) =>
      var query := [Queried("asId", Value(asId))];
      if ("asId", Value(asId)) in s.indexed then Publication(Ok(0), query, s)
      else
        var p := PublishNew(item, asId, root, fs, s);
        Publication(p.result, query + p.events, p.after)
  }

  /** `upload_item` once the id is known to be new: a permanode is signed,
      the item validated, and the attachments listed and uploaded. */
  function PublishNew(item: Json, asId: Json, root: string, fs: FileSystem, s: StoreState): (r: Publication)
    ensures r.result.Ok? ==> r.result == Ok(1)
    ensures |r.events| >= 1 && r.events[0] == Signed(PermanodeRef(s.nonce))
    ensures s.indexed <= r.after.indexed && r.after.nonce == s.nonce + 1
  {
    var signed := StoreState(s.indexed, s.nonce + 1);
    match Validate(item)
    case Err(e) => Publication(Err(e), [Signed(PermanodeRef(s.nonce))], signed)
    case Ok(f) =>
      match AttachmentList(f)
      case Err(e) => Publication(Err(e), [Signed(PermanodeRef(s.nonce))], signed)
      case Ok(atts) => PutNote(item, asId, f, PlanUploads(root, fs, atts), s)
  }

  /** The end of `upload_item`: the uploads made by the attachment loop, then,
      unless the loop raised, the one put of the permanode, the activity and
      its claims. */
  function PutNote(item: Json, asId: Json, f: Fields, plan: UploadPlan, s: StoreState): (r: Publication)
    ensures r.result.Ok? <==> plan.failure.None?
    ensures r.result.Ok? ==> r.result == Ok(1)
    ensures |r.events| >= 1 && r.events[0] == Signed(PermanodeRef(s.nonce))
    ensures s.indexed <= r.after.indexed && r.after.nonce == s.nonce + 1
    ensures plan.failure.Some? ==> r.result == Err(plan.failure.value) && r.after.indexed == s.indexed
  {
    var uploaded := [Signed(PermanodeRef(s.nonce))] + UploadEvents(plan.uploads);
    if plan.failure.Some? then Publication(Err(plan.failure.value), uploaded, StoreState(s.indexed, s.nonce + 1))
    else
      var claims := Claims(asId, ContentRef(item), f, plan.uploads);
      Publication(Ok(1), uploaded + [Put(PermanodeRef(s.nonce), ContentRef(item), claims)],
                  StoreState(s.indexed + Bindings(claims), s.nonce + 1))
  }

  /** No file was uploaded and nothing was put. */
  predicate NoWrites(events: seq<Event>) {
    forall i :: 0 <= i < |events| ==> !events[i].Uploaded? && !events[i].Put?
  }

  /** An item without a truthy id raises before the store is touched. */
  lemma MissingIdTouchesNothing(item: Json, root: string, fs: FileSystem, s: StoreState)
    requires ApImporter.GetAliased(item, "id").Ok? && !Truthy(ApImporter.GetAliased(item, "id").value)
    ensures Publish(item, root, fs, s) == Publication(Err(MissingAsData(ItemHasNoId)), [], s)
  {
  }

  /** An id the store already has is skipped after the query alone. */
  lemma DuplicateIsSkipped(item: Json, root: string, fs: FileSystem, s: StoreState, asId: Json)
    requires ItemId(item) == Ok(asId) && ("asId", Value(asId)) in s.indexed
    ensures Publish(item, root, fs, s) == Publication(Ok(0), [Queried("asId", Value(asId))], s)
  {
  }

  /** A missing required field raises after the query and the signing of the
      permanode, before any upload or put. */
  lemma InvalidItemWritesNothing(item: Json, root: string, fs: FileSystem, s: StoreState, asId: Json)
    requires ItemId(item) == Ok(asId) && ("asId", Value(asId)) !in s.indexed
    requires Validate(item).Err?
    ensures var p := Publish(item, root, fs, s);
            && p.result == Err(Validate(item).error)
            && p.events == [Queried("asId", Value(asId)), Signed(PermanodeRef(s.nonce))]
            && NoWrites(p.events)
            && p.after.indexed == s.indexed
  {
  }

  /** An activity whose object has no `id` raises missing data and writes
      nothing. */
  lemma ObjectWithoutIdWritesNothing(item: Json, root: string, fs: FileSystem, s: StoreState,
                                     m: map<string, Json>)
    requires ItemId(item).Ok? ==> ("asId", Value(ItemId(item).value)) !in s.indexed
    requires item.JObj? && "object" in item.fields && item.fields["object"] == JObj(m)
    requires "id" !in m && "@id" !in m
    ensures Publish(item, root, fs, s).result.Err? && Publish(item, root, fs, s).result.error.MissingAsData?
    ensures NoWrites(Publish(item, root, fs, s).events)
  {
    assert "@" + "id" == "@id";
    assert Validate(item) == Err(MissingAsData(ObjectHasNoId));
  }

  /** The first attachment lacks `url`: the `KeyError` escapes as it is,
      since the attachment loop lies outside the `try` block, and nothing is
      uploaded or put. */
  lemma AttachmentWithoutUrlIsKeyError(item: Json, root: string, fs: FileSystem, s: StoreState,
                                       asId: Json, atts: seq<Json>)
    requires ItemId(item) == Ok(asId) && ("asId", Value(asId)) !in s.indexed
    requires Validate(item).Ok? && AttachmentList(Validate(item).value) == Ok(atts)
    requires |atts| > 0 && atts[0].JObj? && "url" !in atts[0].fields
    ensures Publish(item, root, fs, s).result == Err(KeyError("url"))
    ensures NoWrites(Publish(item, root, fs, s).events)
  {
    PlanUploadsInOrder(root, fs, atts);
  }

  /** An attachment at position `k` that raises, after `k` that opened, is
      where the loop stops: `k` files were uploaded and its exception ends
      the loop. */
  lemma PlanFailsAt(root: string, fs: FileSystem, atts: seq<Json>, k: nat)
    requires k < |atts| && OpenAttachment(root, fs, atts[k]).Err?
    requires forall n :: 0 <= n < k ==> OpenAttachment(root, fs, atts[n]).Ok?
    ensures PlanUploads(root, fs, atts).failure == Some(OpenAttachment(root, fs, atts[k]).error)
    ensures |PlanUploads(root, fs, atts).uploads| == k
  {
    PlanIsFirstFailure(root, fs, atts);
    OpenedAt(root, fs, atts);
    FirstFailureAt(Opened(root, fs, atts), k);
  }

  /** Over given outcomes: a failure at `k` after `k` successes is where the
      loop stops. */
  lemma FirstFailureAt(files: seq<Result<Upload>>, k: nat)
    requires k < |files| && files[k].Err?
    requires forall n :: 0 <= n < k ==> files[n].Ok?
    ensures FirstFailure(files).failure == Some(files[k].error)
    ensures |FirstFailure(files).uploads| == k
  {
    FirstFailureInOrder(files);
  }

  /** An attachment that raises, after `k` that opened, ends the call with
      its exception once the `k` files are uploaded: no put is made and the
      id stays unsearchable, so the item is tried again on the next run. */
  lemma AttachmentFailureIsRaised(item: Json, root: string, fs: FileSystem, s: StoreState,
                                  asId: Json, atts: seq<Json>, k: nat)
    requires ItemId(item) == Ok(asId) && ("asId", Value(asId)) !in s.indexed
    requires Validate(item).Ok? && AttachmentList(Validate(item).value) == Ok(atts)
    requires k < |atts| && OpenAttachment(root, fs, atts[k]).Err?
    requires forall n :: 0 <= n < k ==> OpenAttachment(root, fs, atts[n]).Ok?
    ensures Publish(item, root, fs, s).result == Err(OpenAttachment(root, fs, atts[k]).error)
    ensures |Publish(item, root, fs, s).events| == k + 2
    ensures forall i :: 0 <= i < |Publish(item, root, fs, s).events| ==> !Publish(item, root, fs, s).events[i].Put?
    ensures UploadsOpenedFirst(Publish(item, root, fs, s).events, root, fs, atts, k)
    ensures Publish(item, root, fs, s).after.indexed == s.indexed
  {
    PlanFailsAt(root, fs, atts, k);
    UploadEventsAt(PlanUploads(root, fs, atts).uploads);
    FailedUploads(item, root, fs, s, asId, atts, k);
  }

  /** The calls after the signing upload the first `k` attachments, each
      opened, in order. */
  predicate UploadsOpenedFirst(events: seq<Event>, root: string, fs: FileSystem, atts: seq<Json>, k: nat) {
    && |events| >= k + 2 && k <= |atts|
    && forall i :: 2 <= i < k + 2 ==>
         && OpenAttachment(root, fs, atts[i - 2]).Ok?
         && events[i] == UploadedFile(OpenAttachment(root, fs, atts[i - 2]).value)
  }

  /** The files uploaded before an attachment that raises are the earlier
      attachments', in order. */
  lemma FailedUploads(item: Json, root: string, fs: FileSystem, s: StoreState,
                      asId: Json, atts: seq<Json>, k: nat)
    requires ItemId(item) == Ok(asId) && ("asId", Value(asId)) !in s.indexed
    requires Validate(item).Ok? && AttachmentList(Validate(item).value) == Ok(atts)
    requires k < |atts| && OpenAttachment(root, fs, atts[k]).Err?
    requires forall n :: 0 <= n < k ==> OpenAttachment(root, fs, atts[n]).Ok?
    ensures UploadsOpenedFirst(Publish(item, root, fs, s).events, root, fs, atts, k)
  {
    PlanFailsAt(root, fs, atts, k);
    PlanUploadsInOrder(root, fs, atts);
    FailedEvents(item, root, fs, s, asId, atts);
    UploadsFirstOf(Publish(item, root, fs, s).events, [Queried("asId", Value(asId)), Signed(PermanodeRef(s.nonce))],
                   root, fs, atts, PlanUploads(root, fs, atts).uploads);
  }

  /** The calls of a new, valid item whose attachment loop raised: the query,
      the signing, then the uploads made before the failure. */
  lemma FailedEvents(item: Json, root: string, fs: FileSystem, s: StoreState, asId: Json, atts: seq<Json>)
    requires ItemId(item) == Ok(asId) && ("asId", Value(asId)) !in s.indexed
    requires Validate(item).Ok? && AttachmentList(Validate(item).value) == Ok(atts)
    requires PlanUploads(root, fs, atts).failure.Some?
    ensures Publish(item, root, fs, s).events
            == [Queried("asId", Value(asId)), Signed(PermanodeRef(s.nonce))] + UploadEvents(PlanUploads(root, fs, atts).uploads)
  {
  }

  /** Calls that follow a two-call head with the uploads of files that the
      first attachments opened to upload those attachments in order. */
  lemma UploadsFirstOf(events: seq<Event>, head: seq<Event>, root: string, fs: FileSystem,
                       atts: seq<Json>, ups: seq<Upload>)
    requires |head| == 2 && events == head + UploadEvents(ups) && |ups| <= |atts|
    requires forall n :: 0 <= n < |ups| ==> OpenAttachment(root, fs, atts[n]) == Ok(ups[n])
    ensures UploadsOpenedFirst(events, root, fs, atts, |ups|)
  {
    UploadEventsAt(ups);
  }

  /** A new id whose call does not raise is published: the call returns 1. */
  lemma NewItemIsPublished(item: Json, root: string, fs: FileSystem, s: StoreState)
    requires ItemId(item).Ok? && ("asId", Value(ItemId(item).value)) !in s.indexed
    requires Publish(item, root, fs, s).result.Ok?
    ensures Publish(item, root, fs, s).result == Ok(1)
  {
  }

  /** A new, valid item whose attachments all open is published. */
  lemma OpenableItemIsPublished(item: Json, root: string, fs: FileSystem, s: StoreState, atts: seq<Json>)
    requires ItemId(item).Ok? && ("asId", Value(ItemId(item).value)) !in s.indexed
    requires Validate(item).Ok? && AttachmentList(Validate(item).value) == Ok(atts)
    requires forall n :: 0 <= n < |atts| ==> OpenAttachment(root, fs, atts[n]).Ok?
    ensures Publish(item, root, fs, s).result == Ok(1)
  {
    PlanUploadsInOrder(root, fs, atts);
  }

  /** A call that put a note went through every check: the id was new, the
      item valid, the attachment list readable and every attachment opened. */
  lemma PublishedIsPutNote(item: Json, root: string, fs: FileSystem, s: StoreState)
    requires Publish(item, root, fs, s).result == Ok(1)
    ensures ItemId(item).Ok? && ("asId", Value(ItemId(item).value)) !in s.indexed
    ensures Validate(item).Ok? && AttachmentList(Validate(item).value).Ok?
    ensures var plan := PlanUploads(root, fs, AttachmentList(Validate(item).value).value);
            var q := PutNote(item, ItemId(item).value, Validate(item).value, plan, s);
            && plan.failure.None?
            && Publish(item, root, fs, s) == Publication(Ok(1), [Queried("asId", Value(ItemId(item).value))] + q.events, q.after)
  {
  }

  /** The calls of an `upload_item` that put a note: the id query, the
      signing of the permanode, one upload per attachment, and one final put
      of the permanode and the activity with `claims`. */
  predicate PutsNote(events: seq<Event>, asId: Json, pnode: Ref, blob: Ref, claims: seq<Claim>) {
    && |events| >= 3
    && events[0] == Queried("asId", Value(asId))
    && events[1] == Signed(pnode)
    && (forall i :: 2 <= i < |events| - 1 ==> events[i].Uploaded?)
    && events[|events| - 1] == Put(pnode, blob, claims)
  }

  /** The claims of that put, in order: the eight fixed claims, then one
      claim per uploaded file naming it, in upload order. The content claim,
      already among the fixed ones, is spelled out to show that it is
      `object.content` verbatim. */
  predicate ClaimsNote(claims: seq<Claim>, events: seq<Event>, asId: Json, blob: Ref, f: Fields)
    requires |events| >= 3
  {
    && |claims| == 8 + (|events| - 3)
    && claims[..8] == BaseClaims(asId, blob, f)
    && claims[6] == Claim("content", Set, Value(f.content))
    && forall i :: 2 <= i < |events| - 1 ==>
         && events[i].Uploaded?
         && claims[i + 6] == Claim(AttachmentAttr(i - 2), Set, RefTo(FileRef(events[i].name, events[i].data)))
  }

  /** The calls of a `PutNote` whose uploads all succeeded, after the query,
      position by position. */
  lemma NoteEvents(item: Json, asId: Json, f: Fields, plan: UploadPlan, s: StoreState)
    requires plan.failure.None?
    ensures var events := [Queried("asId", Value(asId))] + PutNote(item, asId, f, plan, s).events;
            var ups := plan.uploads;
            && |events| == |ups| + 3
            && events[0] == Queried("asId", Value(asId))
            && events[1] == Signed(PermanodeRef(s.nonce))
            && (forall n :: 0 <= n < |ups| ==> events[2 + n] == Uploaded(ups[n].name, ups[n].data))
            && events[|ups| + 2] == Put(PermanodeRef(s.nonce), ContentRef(item), Claims(asId, ContentRef(item), f, ups))
  {
    var ups := plan.uploads;
    var uploads := UploadEvents(ups);
    var put := Put(PermanodeRef(s.nonce), ContentRef(item), Claims(asId, ContentRef(item), f, ups));
    var events := [Queried("asId", Value(asId))] + PutNote(item, asId, f, plan, s).events;
    assert events == [Queried("asId", Value(asId))] + ([Signed(PermanodeRef(s.nonce))] + uploads + [put]);
    UploadEventsAt(ups);
    forall n | 0 <= n < |ups|
      ensures events[2 + n] == Uploaded(ups[n].name, ups[n].data)
    {
      assert events[2 + n] == uploads[n];
    }
  }

  lemma NotePuts(item: Json, asId: Json, f: Fields, plan: UploadPlan, s: StoreState)
    requires plan.failure.None?
    ensures PutsNote([Queried("asId", Value(asId))] + PutNote(item, asId, f, plan, s).events,
                     asId, PermanodeRef(s.nonce), ContentRef(item), Claims(asId, ContentRef(item), f, plan.uploads))
  {
    NoteEvents(item, asId, f, plan, s);
    var events := [Queried("asId", Value(asId))] + PutNote(item, asId, f, plan, s).events;
    var ups := plan.uploads;
    forall i | 2 <= i < |events| - 1
      ensures events[i].Uploaded?
    {
      assert events[2 + (i - 2)] == Uploaded(ups[i - 2].name, ups[i - 2].data);
    }
  }

  lemma NoteClaims(item: Json, asId: Json, f: Fields, plan: UploadPlan, s: StoreState)
    requires plan.failure.None?
    ensures |PutNote(item, asId, f, plan, s).events| >= 2
    ensures ClaimsNote(Claims(asId, ContentRef(item), f, plan.uploads),
                       [Queried("asId", Value(asId))] + PutNote(item, asId, f, plan, s).events, asId, ContentRef(item), f)
  {
    NoteEvents(item, asId, f, plan, s);
    var events := [Queried("asId", Value(asId))] + PutNote(item, asId, f, plan, s).events;
    var ups := plan.uploads;
    var cs := Claims(asId, ContentRef(item), f, ups);
    ClaimsLayout(asId, ContentRef(item), f, ups);
    forall i | 2 <= i < |events| - 1
      ensures && events[i].Uploaded?
              && cs[i + 6] == Claim(AttachmentAttr(i - 2), Set, RefTo(FileRef(events[i].name, events[i].data)))
    {
      assert events[2 + (i - 2)] == Uploaded(ups[i - 2].name, ups[i - 2].data);
      assert cs[8 + (i - 2)] == Claim(AttachmentAttr(i - 2), Set, RefTo(UploadRef(ups[i - 2])));
    }
    assert cs[..8] == BaseClaims(asId, ContentRef(item), f);
  }

  /** A put's claims make the activity id searchable. */
  lemma NoteIndexed(item: Json, asId: Json, f: Fields, plan: UploadPlan, s: StoreState)
    requires plan.failure.None?
    ensures ("asId", Value(asId)) in PutNote(item, asId, f, plan, s).after.indexed
  {
    var cs := Claims(asId, ContentRef(item), f, plan.uploads);
    ClaimsLayout(asId, ContentRef(item), f, plan.uploads);
    assert cs[2] == Claim("asId", Set, Value(asId)) && cs[2] in cs;
  }

  /** A successful call queries the id, signs one permanode, uploads every
      attachment and ends with one put of the permanode and the serialized
      activity, whose claims are the fixed ones and one per uploaded file; the
      activity id becomes searchable. */
  lemma PublishedShape(item: Json, root: string, fs: FileSystem, s: StoreState)
    requires Publish(item, root, fs, s).result == Ok(1)
    ensures ItemId(item).Ok? && Validate(item).Ok?
    ensures var p := Publish(item, root, fs, s);
            exists claims :: && PutsNote(p.events, ItemId(item).value, PermanodeRef(s.nonce), ContentRef(item), claims)
                             && ClaimsNote(claims, p.events, ItemId(item).value, ContentRef(item), Validate(item).value)
    ensures ("asId", Value(ItemId(item).value)) in Publish(item, root, fs, s).after.indexed
    ensures AttachmentList(Validate(item).value).Ok?
    ensures UploadsOpened(Publish(item, root, fs, s).events, root, fs, AttachmentList(Validate(item).value).value)
  {
    PublishedCalls(item, root, fs, s);
    PublishedUploads(item, root, fs, s);
  }

  /** The calls and claims of a successful call, and the activity id
      searchable afterwards. */
  lemma PublishedCalls(item: Json, root: string, fs: FileSystem, s: StoreState)
    requires Publish(item, root, fs, s).result == Ok(1)
    ensures ItemId(item).Ok? && Validate(item).Ok?
    ensures var p := Publish(item, root, fs, s);
            exists claims :: && PutsNote(p.events, ItemId(item).value, PermanodeRef(s.nonce), ContentRef(item), claims)
                             && ClaimsNote(claims, p.events, ItemId(item).value, ContentRef(item), Validate(item).value)
    ensures ("asId", Value(ItemId(item).value)) in Publish(item, root, fs, s).after.indexed
  {
    PublishedIsPutNote(item, root, fs, s);
    var asId, f := ItemId(item).value, Validate(item).value;
    var plan := PlanUploads(root, fs, AttachmentList(f).value);
    NotePuts(item, asId, f, plan, s);
    NoteClaims(item, asId, f, plan, s);
    NoteIndexed(item, asId, f, plan, s);
    var cs := Claims(asId, ContentRef(item), f, plan.uploads);
    assert PutsNote(Publish(item, root, fs, s).events, asId, PermanodeRef(s.nonce), ContentRef(item), cs);
  }

  /** The call that uploads file `u`. */
  function UploadedFile(u: Upload): Event {
    Uploaded(u.name, u.data)
  }

  /** The calls between the signing and the put upload the attachments
      `atts`, each opened, one per attachment and in order. */
  predicate UploadsOpened(events: seq<Event>, root: string, fs: FileSystem, atts: seq<Json>) {
    && |events| == |atts| + 3
    && forall i :: 2 <= i < |events| - 1 ==>
         && OpenAttachment(root, fs, atts[i - 2]).Ok?
         && events[i] == UploadedFile(OpenAttachment(root, fs, atts[i - 2]).value)
  }

  /** The uploads of a successful call are the item's attachments, opened,
      one per attachment and in order. */
  lemma PublishedUploads(item: Json, root: string, fs: FileSystem, s: StoreState)
    requires Publish(item, root, fs, s).result == Ok(1)
    ensures ItemId(item).Ok? && Validate(item).Ok?
    ensures AttachmentList(Validate(item).value).Ok?
    ensures UploadsOpened(Publish(item, root, fs, s).events, root, fs, AttachmentList(Validate(item).value).value)
  {
    PublishedIsPutNote(item, root, fs, s);
    var asId, f := ItemId(item).value, Validate(item).value;
    var atts := AttachmentList(f).value;
    var plan := PlanUploads(root, fs, atts);
    PlanUploadsInOrder(root, fs, atts);
    NoteEvents(item, asId, f, plan, s);
    var events := Publish(item, root, fs, s).events;
    assert events == [Queried("asId", Value(asId))] + PutNote(item, asId, f, plan, s).events;
    forall i | 2 <= i < |events| - 1
      ensures OpenAttachment(root, fs, atts[i - 2]) == Ok(plan.uploads[i - 2])
      ensures events[i] == UploadedFile(plan.uploads[i - 2])
    {
      assert events[2 + (i - 2)] == Uploaded(plan.uploads[i - 2].name, plan.uploads[i - 2].data);
    }
  }

  /** Publishing an activity a second time, against the store the first call
      left, is a skip that makes no write. */
  lemma RepublishIsSkipped(item: Json, root: string, fs: FileSystem, s: StoreState)
    requires Publish(item, root, fs, s).result == Ok(1)
    ensures var after := Publish(item, root, fs, s).after;
            Publish(item, root, fs, after) == Publication(Ok(0), [Queried("asId", Value(ItemId(item).value))], after)
  {
    PublishedShape(item, root, fs, s);
  }

  /** The content claim is `object.content` verbatim: a `summary` on the
      object leaves the validated fields, and so the `content` claim,
      unchanged. */
  lemma SummaryIsIgnored(item: map<string, Json>, obj: map<string, Json>, summary: Json)
    requires "object" in item && item["object"] == JObj(obj)
    ensures Validate(JObj(item["object" := JObj(obj["summary" := summary])])) == Validate(JObj(item))
  {
    var obj' := obj["summary" := summary];
    var item' := item["object" := JObj(obj')];
    assert ApImporter.GetAliased(JObj(obj'), "id") == ApImporter.GetAliased(JObj(obj), "id") by {
      assert "@" + "id" == "@id";
    }
    assert DictGet(obj', "attachment") == DictGet(obj, "attachment");
  }

  /** The counters of `upload_items`. */
  datatype Tally = Tally(added: nat, skips: nat)

  /** The effect of `upload_items` on a list of items: each item is published
      against the store the previous ones left; the first exception stops the
      run. */
  datatype Batch = Batch(result: Result<Tally>, events: seq<Event>, after: StoreState)

  function PublishAll(items: seq<Json>, root: string, fs: FileSystem, s: StoreState): (r: Batch)
    ensures r.result.Ok? ==> r.result.value.added + r.result.value.skips == |items|
    decreases |items|
  {
    if |items| == 0 then Batch(Ok(Tally(0, 0)), [], s)
    else
      var prev := PublishAll(items[..|items| - 1], root, fs, s);
      Count(prev, Publish(items[|items| - 1], root, fs, prev.after))
  }

  /** One turn of the loop of `upload_items`, given what publishing the item
      against the store the earlier items left does: after an exception
      nothing more happens; otherwise the item's calls are made and it is
      counted as added or skipped. */
  function Count(prev: Batch, p: Publication): (r: Batch)
    ensures prev.result.Err? ==> r == prev
    ensures prev.result.Ok? ==> r.events == prev.events + p.events && r.after == p.after
    ensures r.result.Ok? <==> prev.result.Ok? && p.result.Ok?
    ensures r.result.Ok? ==> r.result.value == Tallied(prev.result.value, p.result.value)
  {
    if prev.result.Err? then prev
    else
      var t := prev.result.value;
      match p.result
      case Err(e) => Batch(Err(e), prev.events + p.events, p.after)
      case Ok(n) => Batch(Ok(Tallied(t, n)), prev.events + p.events, p.after)
  }

  /** The counters after an item whose `upload_item` returned `n`: added by
      `n` when it put notes, otherwise skipped once. */
  function Tallied(t: Tally, n: nat): (r: Tally)
    ensures r.added == t.added + n
    ensures n == 0 ==> r.skips == t.skips + 1
    ensures n > 0 ==> r.skips == t.skips
  {
    if n > 0 then Tally(t.added + n, t.skips) else Tally(t.added, t.skips + 1)
  }

  /** An item that publishes with result `n` after a run that has not failed
      is counted as added (by `n`) or skipped. */
  lemma PublishAllStep(items: seq<Json>, i: nat, root: string, fs: FileSystem, s: StoreState)
    requires i < |items|
    ensures var prev := PublishAll(items[..i], root, fs, s);
            PublishAll(items[..i + 1], root, fs, s) == Count(prev, Publish(items[i], root, fs, prev.after))
  {
    assert items[..i + 1][..i] == items[..i];
  }

  lemma ConcatAssoc(a: seq<Event>, b: seq<Event>, c: seq<Event>)
    ensures (a + b) + c == a + (b + c)
  {
  }

  /** `upload_items` over a generator run: its yielded items, then the
      exception that ended it, if the items all went through. */
  function UploadAll(items: Yielded<Json>, root: string, fs: FileSystem, s: StoreState): (r: Batch)
    ensures var b := PublishAll(items.items, root, fs, s);
            r.events == b.events && r.after == b.after
    ensures r.result.Ok? <==> PublishAll(items.items, root, fs, s).result.Ok? && items.stop.None?
    ensures PublishAll(items.items, root, fs, s).result.Ok? && items.stop.Some? ==> r.result == Err(items.stop.value)
    ensures PublishAll(items.items, root, fs, s).result.Err? ==> r.result == PublishAll(items.items, root, fs, s).result
  {
    var b := PublishAll(items.items, root, fs, s);
    if b.result.Ok? && items.stop.Some? then Batch(Err(items.stop.value), b.events, b.after) else b
  }

  function PutCount(events: seq<Event>): nat
    decreases |events|
  {
    if |events| == 0 then 0
    else PutCount(events[..|events| - 1]) + (if events[|events| - 1].Put? then 1 else 0)
  }

  lemma {:induction false} PutCountAppend(a: seq<Event>, b: seq<Event>)
    ensures PutCount(a + b) == PutCount(a) + PutCount(b)
    decreases |b|
  {
    if |b| > 0 {
      assert (a + b)[..|a + b| - 1] == a + b[..|b| - 1];
      PutCountAppend(a, b[..|b| - 1]);
    } else {
      assert a + b == a;
    }
  }

  /** One call returns 1 exactly when it puts, once, and 0 when it makes no
      put. */
  lemma PublishPuts(item: Json, root: string, fs: FileSystem, s: StoreState)
    ensures var p := Publish(item, root, fs, s);
            p.result.Ok? ==> p.result.value <= 1 && PutCount(p.events) == p.result.value
  {
    match ItemId(item)
    case Err(_) =>
    case Ok(asId) =>
      var query := [Queried("asId", Value(asId))];
      NoPuts(query);
      if ("asId", Value(asId)) !in s.indexed {
        var p := PublishNew(item, asId, root, fs, s);
        PutCountAppend(query, p.events);
        match Validate(item)
        case Err(_) =>
        case Ok(f) =>
          match AttachmentList(f)
          case Err(_) =>
          case Ok(atts) =>
            var plan := PlanUploads(root, fs, atts);
            if plan.failure.None? {
              PutNoteCount(item, asId, f, plan, s);
            }
      }
  }

  lemma PutNoteCount(item: Json, asId: Json, f: Fields, plan: UploadPlan, s: StoreState)
    requires plan.failure.None?
    ensures PutCount(PutNote(item, asId, f, plan, s).events) == 1
  {
    var events := PutNote(item, asId, f, plan, s).events;
    var uploaded := [Signed(PermanodeRef(s.nonce))] + UploadEvents(plan.uploads);
    assert forall i :: 0 <= i < |UploadEvents(plan.uploads)| ==> UploadEvents(plan.uploads)[i].Uploaded? by {
      UploadEventsAt(plan.uploads);
    }
    NoPuts(uploaded);
    assert events[..|events| - 1] == uploaded;
  }

  lemma {:induction false} NoPuts(events: seq<Event>)
    requires forall i :: 0 <= i < |events| ==> !events[i].Put?
    ensures PutCount(events) == 0
    decreases |events|
  {
    if |events| > 0 {
      NoPuts(events[..|events| - 1]);
    }
  }

  /** After a run without exception every item was counted once, as added or
      as skipped, and the added count is the number of puts made. */
  lemma {:induction false} TallyCoversEveryItem(items: seq<Json>, root: string, fs: FileSystem, s: StoreState)
    requires PublishAll(items, root, fs, s).result.Ok?
    ensures var b := PublishAll(items, root, fs, s);
            b.result.value.added + b.result.value.skips == |items|
            && b.result.value.added == PutCount(b.events)
    decreases |items|
  {
    if |items| > 0 {
      var prev := PublishAll(items[..|items| - 1], root, fs, s);
      TallyCoversEveryItem(items[..|items| - 1], root, fs, s);
      PublishPuts(items[|items| - 1], root, fs, prev.after);
      PutCountAppend(prev.events, Publish(items[|items| - 1], root, fs, prev.after).events);
    }
  }

  /** Once an item has raised, the later items are never published. */
  lemma {:induction false} PublishAllStopped(items: seq<Json>, n: nat, root: string, fs: FileSystem, s: StoreState)
    requires n <= |items| && PublishAll(items[..n], root, fs, s).result.Err?
    ensures PublishAll(items, root, fs, s) == PublishAll(items[..n], root, fs, s)
    decreases |items| - n
  {
    if n < |items| {
      assert items[..n + 1][..n] == items[..n];
      PublishAllStopped(items, n + 1, root, fs, s);
    } else {
      assert items[..n] == items;
    }
  }

  class ApUploader {
    const perkeep: Store
    const rootDir: string

    /** The archive root defaults to the current directory. */
    constructor (perkeep: Store, rootDir: Option<string>)
      ensures this.perkeep == perkeep
      ensures this.rootDir == if rootDir.Some? && rootDir.value != "" then rootDir.value else "."
    {
      this.perkeep := perkeep;
      this.rootDir := if rootDir.Some? && rootDir.value != "" then rootDir.value else ".";
    }

    /** `upload_item`: publishes one activity and returns the number of new
        permanodes (0 for an activity already in the store). */
    method UploadItem(item: Json, fs: FileSystem) returns (r: Result<nat>)
      modifies perkeep
      ensures var p := Publish(item, rootDir, fs, old(perkeep.State()));
              r == p.result && perkeep.State() == p.after && perkeep.log == old(perkeep.log) + p.events
    {
      var asId :- ApImporter.GetAliased(item, "id");
      if !Truthy(asId) {
        return Err(MissingAsData(ItemHasNoId));
      }
      var existing := perkeep.Query("asId", Value(asId));
      if existing {
        return Ok(0);
      }
      ghost var query := [Queried("asId", Value(asId))];
      r := UploadNew(item, asId, fs);
      ConcatAssoc(old(perkeep.log), query, PublishNew(item, asId, rootDir, fs, old(perkeep.State())).events);
    }

    /** The claims `upload_item` builds before its attachments: the three
        set before the `try` block, then those the block adds as it reads
        each field, with the attachment value it leaves for later. It raises
        as `Validate` does and builds the claims `BaseClaims` lists. */
    method CollectClaims(item: Json, asId: Json, asObject: Ref) returns (r: Result<(seq<Claim>, Json)>)
      ensures r.Ok? <==> Validate(item).Ok?
      ensures r.Ok? ==> r.value == (BaseClaims(asId, asObject, Validate(item).value), Validate(item).value.attachment)
      ensures r.Err? ==> r.error == Validate(item).error
    {
      var claims := [Claim("camliType", Set, Value(JStr(NoteType))),
                     Claim("camliPath:object", Add, RefTo(asObject)),
                     Claim("asId", Set, Value(asId))];

      // The `try` block.
      var obj :- Reraised(Subscript(item, "object"));
      var objId :- ApImporter.GetAliased(obj, "id");
      if !Truthy(objId) {
        return Err(MissingAsData(ObjectHasNoId));
      }
      claims := claims + [Claim("asObjectId", Set, Value(objId))];
      var actor :- Reraised(Subscript(item, "actor"));
      claims := claims + [Claim("asActor", Set, Value(actor))];
      claims := claims + [Claim("camliPath:object", Set, RefTo(asObject))];
      var htmlText :- Reraised(Subscript(obj, "content"));
      // A truthy `summary` only builds a prefixed text under another name,
      // which nothing reads: the content claim is `object.content` as it is.
      claims := claims + [Claim("content", Set, Value(htmlText))];
      var published :- Reraised(Subscript(item, "published"));
      claims := claims + [Claim("startDate", Set, Value(published))];

      var f := Fields(objId, actor, htmlText, published, DictGet(obj.fields, "attachment"));
      assert Validate(item) == Ok(f);
      assert claims == BaseClaims(asId, asObject, f);
      return Ok((claims, f.attachment));
    }

    /** The rest of `upload_item` for an id not yet in the store. */
    method UploadNew(item: Json, asId: Json, fs: FileSystem) returns (r: Result<nat>)
      modifies perkeep
      ensures var p := PublishNew(item, asId, rootDir, fs, old(perkeep.State()));
              r == p.result && perkeep.State() == p.after && perkeep.log == old(perkeep.log) + p.events
    {
      // Everything is collected first; the put comes last.
      var pnode := perkeep.MakePermanode();
      var asObject := ContentRef(item);
      var validated :- CollectClaims(item, asId, asObject);
      var (claims, attachment) := validated;
      ghost var f := Validate(item).value;

      // Attachments are uploaded before the put.
      var atts: seq<Json> := [];
      if Truthy(attachment) {
        atts :- Members(attachment);
      }
      assert AttachmentList(f) == Ok(atts);
      r := UploadNote(item, asId, f, atts, fs, pnode, claims, old(perkeep.State()), old(perkeep.log));
    }

    /** The end of `upload_item` once the fields are read: the attachments
        are uploaded, then the permanode is put with the activity and every
        claim. */
    method UploadNote(item: Json, asId: Json, ghost f: Fields, atts: seq<Json>, fs: FileSystem,
                      pnode: Ref, claims: seq<Claim>, ghost s: StoreState, ghost log0: seq<Event>)
      returns (r: Result<nat>)
      requires pnode == PermanodeRef(s.nonce) && claims == BaseClaims(asId, ContentRef(item), f)
      requires perkeep.State() == StoreState(s.indexed, s.nonce + 1) && perkeep.log == log0 + [Signed(pnode)]
      modifies perkeep
      ensures var q := PutNote(item, asId, f, PlanUploads(rootDir, fs, atts), s);
              r == q.result && perkeep.State() == q.after && perkeep.log == log0 + q.events
    {
      ghost var plan := PlanUploads(rootDir, fs, atts);
      var attached :- UploadAttachments(atts, fs);
      perkeep.PutMulti(pnode, ContentRef(item), claims + attached);
      ConcatAssoc(log0, [Signed(pnode)], UploadEvents(plan.uploads));
      return Ok(1);
    }

    /** The attachment loop of `upload_item`: each attachment's file is
        uploaded in turn, and the claims binding the uploads are returned. */
    method UploadAttachments(atts: seq<Json>, fs: FileSystem) returns (r: Result<seq<Claim>>)
      modifies perkeep`log
      ensures var plan := PlanUploads(rootDir, fs, atts);
              && (r.Ok? <==> plan.failure.None?)
              && (r.Ok? ==> r.value == AttachmentClaims(plan.uploads))
              && (r.Err? ==> r.error == plan.failure.value)
              && perkeep.log == old(perkeep.log) + UploadEvents(plan.uploads)
      ensures perkeep.State() == old(perkeep.State())
    {
      ghost var done: seq<Upload> := [];
      var claims := [];
      for n := 0 to |atts|
        invariant PlanUploads(rootDir, fs, atts[..n]) == UploadPlan(done, None) && |done| == n
        invariant claims == AttachmentClaims(done)
        invariant perkeep.log == old(perkeep.log) + UploadEvents(done)
        invariant perkeep.State() == old(perkeep.State())
      {
        var claim, u := UploadAttachment(atts, n, fs, done);
        if claim.Err? {
          PlanStopped(rootDir, fs, atts, n + 1);
          return Err(claim.error);
        }
        claims := claims + [claim.value];
        UploadAppended(old(perkeep.log), done, u);
        done := done + [u];
      }
      assert atts[..|atts|] == atts;
      return Ok(claims);
    }

    /** One turn of the attachment loop: `atts[n]` is opened and, when it
        opens, uploaded under its base name, giving its claim. */
    method UploadAttachment(atts: seq<Json>, n: nat, fs: FileSystem, ghost done: seq<Upload>)
      returns (r: Result<Claim>, ghost u: Upload)
      requires n < |atts| && PlanUploads(rootDir, fs, atts[..n]) == UploadPlan(done, None)
      modifies perkeep`log
      ensures r.Ok? ==> && PlanUploads(rootDir, fs, atts[..n + 1]) == UploadPlan(done + [u], None)
                        && r.value == Claim(AttachmentAttr(n), Set, RefTo(UploadRef(u)))
                        && perkeep.log == old(perkeep.log) + [Uploaded(u.name, u.data)]
      ensures r.Err? ==> PlanUploads(rootDir, fs, atts[..n + 1]) == UploadPlan(done, Some(r.error)) && perkeep.log == old(perkeep.log)
      ensures perkeep.State() == old(perkeep.State())
    {
      assert atts[..n + 1][..n] == atts[..n];
      var file := OpenAttachment(rootDir, fs, atts[n]);
      if file.Err? {
        return Err(file.error), Upload("", LocalPath("", ""), []);
      }
      var upload := file.value;
      u := upload;
      var ref := perkeep.UploadFile(upload.name, upload.data);
      r := Ok(Claim(AttachmentAttr(n), Set, RefTo(ref)));
    }

    /** One turn of the loop of `upload_items`: publishes `item` after the
        earlier items, whose run `prev` has not failed, and counts it as added
        (by the number of notes it put) or skipped. */
    method UploadCounted(item: Json, fs: FileSystem, ghost prev: Batch, ghost log0: seq<Event>,
                         added: nat, skips: nat) returns (r: Result<Tally>)
      requires prev.result == Ok(Tally(added, skips)) && perkeep.State() == prev.after
      requires perkeep.log == log0 + prev.events
      modifies perkeep
      ensures var b := Count(prev, Publish(item, rootDir, fs, prev.after));
              r == b.result && perkeep.State() == b.after && perkeep.log == log0 + b.events
    {
      var res := UploadItem(item, fs);
      ghost var p := Publish(item, rootDir, fs, prev.after);
      ConcatAssoc(log0, prev.events, p.events);
      if res.Err? {
        return Err(res.error);
      }
      return Ok(Tallied(Tally(added, skips), res.value));
    }

    /** `upload_items`: publishes every item in turn and returns the counters
        it reports. An exception from an item, or from the generator producing
        the items, ends the run. */
    method UploadItems(items: Yielded<Json>, fs: FileSystem) returns (r: Result<Tally>)
      modifies perkeep
      ensures var b := UploadAll(items, rootDir, fs, old(perkeep.State()));
              r == b.result && perkeep.State() == b.after && perkeep.log == old(perkeep.log) + b.events
    {
      var added, skips := 0, 0;
      ghost var s0, log0 := perkeep.State(), perkeep.log;
      for i := 0 to |items.items|
        invariant var b := PublishAll(items.items[..i], rootDir, fs, s0);
                  b.result == Ok(Tally(added, skips)) && perkeep.State() == b.after && perkeep.log == log0 + b.events
      {
        PublishAllStep(items.items, i, rootDir, fs, s0);
        ghost var prev := PublishAll(items.items[..i], rootDir, fs, s0);
        var next := UploadCounted(items.items[i], fs, prev, log0, added, skips);
        if next.Err? {
          PublishAllStopped(items.items, i + 1, rootDir, fs, s0);
          return Err(next.error);
        }
        added, skips := next.value.added, next.value.skips;
      }
      assert items.items[..|items.items|] == items.items;
      if items.stop.Some? {
        return Err(items.stop.value);
      }
      return Ok(Tally(added, skips));
    }
  }
}

=== FILE: pyjson.dfy ===
/** Parsed JSON values as the Python code sees them, the exceptions that
    surface from the core, and the few Python operations on JSON values
    (truthiness, subscripting, iteration) that the core relies on. */
module PyJson {

  datatype Option<+T> = None | Some(value: T)

  /** Which `MissingAsDataError` was raised. */
  datatype Missing =
    | ActorNotFound
    | ActorHasNoOutbox
    | OutboxNotFound
    | ItemHasNoId
    | ObjectHasNoId
      /** the `KeyError` on `key` that was re-raised as missing data */
    | RequiredDataMissing(key: string)

  /** The exceptions that can escape from the core. */
  datatype Error =
    | MissingAsData(reason: Missing)
    | KeyError(key: string)
    | TypeError
    | IndexError
    | OSError(path: string)
    | UnicodeDecodeError
      /** iterating a JSON object, which Python does over its keys in
          insertion order; objects here are unordered maps */
    | UnorderedIteration

  datatype Result<+T> = Ok(value: T) | Err(error: Error) {
    predicate IsFailure() { Err? }

    function PropagateFailure<U>(): Result<U>
      requires Err?
    {
      Err(error)
    }

    function Extract(): T
      requires Ok?
    {
      value
    }
  }

  /** A value produced by `json.load`; Python's `None` is `JNull`. */
  datatype Json =
    | JNull
    | JBool(b: bool)
    | JNum(n: real)
    | JStr(s: string)
    | JList(elems: seq<Json>)
    | JObj(fields: map<string, Json>)

  /** Python truthiness (`if x`, `if not x`). */
  predicate Truthy(v: Json) {
    match v
    case JNull => false
    case JBool(b) => b
    case JNum(n) => n != 0.0
    case JStr(s) => s != []
    case JList(xs) => xs != []
    case JObj(m) => m != map[]
  }

  /** The falsy values are exactly `None`, `False`, zero and the empty
      string, list and dict. */
  lemma FalsyValues(v: Json)
    ensures !Truthy(v) <==> v in {JNull, JBool(false), JNum(0.0), JStr(""), JList([]), JObj(map[])}
  {
  }

  /** `v[key]` with a string key. */
  function Subscript(v: Json, key: string): (r: Result<Json>)
    ensures r.Ok? <==> v.JObj? && key in v.fields
    ensures r.Ok? ==> r.value == v.fields[key]
    ensures v.JObj? && key !in v.fields ==> r == Err(KeyError(key))
    ensures !v.JObj? ==> r == Err(TypeError)
  {
    match v
    case JObj(m) => if key in m then Ok(m[key]) else Err(KeyError(key))
    case _ => Err(TypeError)
  }

  /** `except KeyError as ex: raise MissingAsDataError(...) from ex`: a
      `KeyError` on `key` becomes the missing-data error `reason(key)`; a
      success or any other exception passes through unchanged. */
  function Required<T>(r: Result<T>, reason: string -> Missing): (r': Result<T>)
    ensures r.Err? && r.error.KeyError? ==> r' == Err(MissingAsData(reason(r.error.key)))
    ensures !(r.Err? && r.error.KeyError?) ==> r' == r
    ensures r'.Err? ==> !r'.error.KeyError?
  {
    if r.Err? && r.error.KeyError? then Err(MissingAsData(reason(r.error.key))) else r
  }

  /** `m.get(key)` on a dict. */
  function DictGet(m: map<string, Json>, key: string): Json {
    if key in m then m[key] else JNull
  }

  /** `m.get(key)` is `m[key]` where that succeeds, and `None` where it
      raises. */
  lemma DictGetIsSubscript(m: map<string, Json>, key: string)
    ensures Subscript(JObj(m), key).Ok? ==> DictGet(m, key) == Subscript(JObj(m), key).value
    ensures Subscript(JObj(m), key).Err? ==> DictGet(m, key) == JNull
  {
  }

  /** The elements that `for x in v` visits: a list's elements in order, a
      string's characters as one-character strings. */
  function Members(v: Json): (r: Result<seq<Json>>)
    ensures v.JList? ==> r == Ok(v.elems)
    ensures v.JStr? ==> r.Ok? && |r.value| == |v.s|
    ensures v.JStr? ==> forall i :: 0 <= i < |v.s| ==> r.value[i] == JStr([v.s[i]])
    ensures v.JNull? || v.JBool? || v.JNum? ==> r == Err(TypeError)
  {
    match v
    case JList(xs) => Ok(xs)
    case JStr(s) => Ok(seq(|s|, i requires 0 <= i < |s| => JStr([s[i]])))
    case JObj(_) => Err(UnorderedIteration)
    case _ => Err(TypeError)
  }

  /** Python's `sub in s` on strings. */
  predicate Contains(s: string, sub: string)
    decreases |s|
  {
    sub <= s || (|s| > 0 && Contains(s[1..], sub))
  }

  /** `sub in s` holds exactly when `sub` occurs in `s` at some position. */
  lemma {:induction false} ContainsAt(s: string, sub: string)
    ensures Contains(s, sub) <==> exists i :: 0 <= i <= |s| && sub <= s[i..]
    decreases |s|
  {
    assert s[0..] == s;
    if |s| > 0 {
      ContainsAt(s[1..], sub);
      if Contains(s[1..], sub) {
        var j :| 0 <= j <= |s[1..]| && sub <= s[1..][j..];
        assert s[1..][j..] == s[j + 1..];
      }
      if i :| 0 < i <= |s| && sub <= s[i..] {
        assert s[i..] == s[1..][i - 1..];
      }
    } else {
      forall i | 0 <= i <= |s| && sub <= s[i..]
        ensures sub <= s
      {
        assert i == 0;
      }
    }
  }
}

=== FILE: text.dfy ===
/** The two pieces of text handling the uploader depends on: writing an
    attachment index in decimal (Python's f-string `{n}`), and percent-decoding
    an attachment URL (`urllib.parse.unquote`, over characters below 256). */
module Text {

  predicate IsDigit(c: char) {
    '0' <= c <= '9'
  }

  /** `str(n)` for a natural number. */
  function NatToString(n: nat): (s: string)
    ensures |s| > 0 && forall i :: 0 <= i < |s| ==> IsDigit(s[i])
    decreases n
  {
    var d := ('0' as int + n % 10) as char;
    if n < 10 then [d] else NatToString(n / 10) + [d]
  }

  /** `int(s)` for a non-empty string of decimal digits. */
  function ParseNat(s: string): nat
    requires forall i :: 0 <= i < |s| ==> IsDigit(s[i])
    decreases |s|
  {
    if |s| == 0 then 0
    else
      var last := s[|s| - 1];
      assert IsDigit(last);
      ParseNat(s[..|s| - 1]) * 10 + (last as int - '0' as int)
  }

  /** Decimal writing is undone by parsing, so distinct numbers are written
      differently. */
  lemma {:induction false} ParseNatToString(n: nat)
    ensures ParseNat(NatToString(n)) == n
    decreases n
  {
    var s := NatToString(n);
    if n >= 10 {
      assert s[..|s| - 1] == NatToString(n / 10);
      ParseNatToString(n / 10);
    }
  }

  lemma NatToStringInjective(m: nat, n: nat)
    requires NatToString(m) == NatToString(n)
    ensures m == n
  {
    ParseNatToString(m);
    ParseNatToString(n);
  }

  predicate IsHexDigit(c: char) {
    '0' <= c <= '9' || 'a' <= c <= 'f' || 'A' <= c <= 'F'
  }

  function HexValue(c: char): (v: nat)
    requires IsHexDigit(c)
    ensures v < 16
  {
    if '0' <= c <= '9' then c as int - '0' as int
    else if 'a' <= c <= 'f' then c as int - 'a' as int + 10
    else c as int - 'A' as int + 10
  }

  /** Percent-decoding: every `%` followed by two hexadecimal digits (either
      case) becomes the character with that code; a `%` not followed by two
      hexadecimal digits stays as it is. */
  function Unquote(s: string): (r: string)
    ensures |r| <= |s|
    decreases |s|
  {
    if |s| == 0 then ""
    else if s[0] == '%' && |s| >= 3 && IsHexDigit(s[1]) && IsHexDigit(s[2]) then
      [(HexValue(s[1]) * 16 + HexValue(s[2])) as char] + Unquote(s[3..])
    else [s[0]] + Unquote(s[1..])
  }

  /** Text without `%` is not changed by decoding. */
  lemma {:induction false} UnquoteWithoutPercent(s: string)
    requires forall i :: 0 <= i < |s| ==> s[i] != '%'
    ensures Unquote(s) == s
    decreases |s|
  {
    if |s| > 0 {
      UnquoteWithoutPercent(s[1..]);
    }
  }

  /** Decoding passes over a prefix without `%` unchanged. */
  lemma {:induction false} UnquotePlainPrefix(a: string, b: string)
    requires forall i :: 0 <= i < |a| ==> a[i] != '%'
    ensures Unquote(a + b) == a + Unquote(b)
    decreases |a|
  {
    if |a| == 0 {
      assert a + b == b;
    } else {
      var t := a + b;
      assert t[0] == a[0] && t[0] != '%';
      assert t[1..] == a[1..] + b;
      assert Unquote(t) == [a[0]] + Unquote(a[1..] + b);
      UnquotePlainPrefix(a[1..], b);
      assert [a[0]] + (a[1..] + Unquote(b)) == ([a[0]] + a[1..]) + Unquote(b);
      assert [a[0]] + a[1..] == a;
    }
  }

  /** A `%` that does not start two hexadecimal digits is kept as it is, and
      decoding goes on right after it. */
  lemma UnquoteKeepsMalformed(b: string)
    requires !(|b| >= 2 && IsHexDigit(b[0]) && IsHexDigit(b[1]))
    ensures Unquote("%" + b) == "%" + Unquote(b)
  {
    assert ("%" + b)[1..] == b;
  }

  /** Characters that percent-encoding leaves as they are (`/` included, as
      for a path). */
  predicate Unreserved(c: char) {
    'A' <= c <= 'Z' || 'a' <= c <= 'z' || '0' <= c <= '9' || c in "-._~/"
  }

  function HexDigit(d: nat): (c: char)
    requires d < 16
    ensures IsHexDigit(c) && HexValue(c) == d
  {
    if d < 10 then ('0' as int + d) as char else ('A' as int + d - 10) as char
  }

  /** Percent-encoding, the inverse of `Unquote` used to state what decoding
      does: every reserved character below 256 is written `%XX`. */
  function Quote(s: string): (r: string)
    decreases |s|
  {
    if |s| == 0 then ""
    else if Unreserved(s[0]) || s[0] as int >= 256 then [s[0]] + Quote(s[1..])
    else ['%', HexDigit(s[0] as int / 16), HexDigit(s[0] as int % 16)] + Quote(s[1..])
  }

  /** Text of unreserved characters is not changed by encoding. */
  lemma {:induction false} QuoteUnreserved(s: string)
    requires forall i :: 0 <= i < |s| ==> Unreserved(s[i])
    ensures Quote(s) == s
    decreases |s|
  {
    if |s| > 0 {
      QuoteUnreserved(s[1..]);
    }
  }

  /** Decoding undoes encoding. */
  lemma {:induction false} UnquoteQuote(s: string)
    ensures Unquote(Quote(s)) == s
    decreases |s|
  {
    if |s| > 0 {
      var q := Quote(s);
      UnquoteQuote(s[1..]);
      if Unreserved(s[0]) || s[0] as int >= 256 {
        assert q == [s[0]] + Quote(s[1..]);
        assert q[0] != '%';
        assert q[1..] == Quote(s[1..]);
      } else {
        var hi, lo := HexDigit(s[0] as int / 16), HexDigit(s[0] as int % 16);
        assert q == ['%', hi, lo] + Quote(s[1..]);
        assert q[0] == '%' && q[1] == hi && q[2] == lo;
        assert q[3..] == Quote(s[1..]);
        assert (HexValue(hi) * 16 + HexValue(lo)) as char == s[0];
      }
    }
  }
}
